=== FILE: README.md ===
# fxpay: receipt verification and the web purchase session, in Dafny

fxpay is a JavaScript library through which a web page or an installed
application sells in-app products. This project models two of its parts:

- **Receipt data verification** (`receipts.verifyData`). A receipt is a
  signed token of three `.`-separated segments, the shape of the compact
  serialization of section 7.1 of RFC 7515. It may carry one
  `~`-separated key prefix. The model decodes its middle segment as base64
  text in the standard alphabet of section 4 of RFC 4648 (not the URL-safe
  alphabet of RFC 7515), the way the tests encode it with `btoa`, and the
  bytes are a JSON payload. The payload's claims are
  checked in a fixed order, and the first failing check decides the error:
  1. the receipt is not a string;
  2. the token is malformed: too many key segments, not three segments,
     an empty segment, a payload that is not base64, or bytes that are
     not JSON;
  3. a claim is missing or of the wrong type: `product.url`,
     `product.storedata`, or a `verify` URL that is not absolute;
  4. the trust rules fail. A `test-receipt` is accepted exactly when fake
     products are enabled. Otherwise it is refused with its payload
     attached. A real receipt needs a verification authority whose origin
     is on the allow-list. It also needs a product URL bound to the
     application:
     - packaged mode: the application's origin, in full or without its
       `scheme://` prefix;
     - hosted mode: the page's own origin.
- **The web purchase session** (`fxpay.purchase` with `pay.processPayment`
  and `pay.acceptPayMessage`). The session is a single-fire state machine
  driven by an explicit sequence of events:
  - the adapter's answer to the transaction request;
  - messages posted by the payment window;
  - timer ticks;
  - the user closing the window.

  The session works as follows:
  - It adopts the caller's window or opens its own.
  - It points the window at the provider URL template for the token's
    type, with `{jwt}` replaced by the token.
  - It accepts messages only from the template's origin.
  - On `unloaded` it looks at the window again after 300 ms:
    - a closed window means `DIALOG_CLOSED_BY_USER`;
    - an open one means the page only navigated.
  - It settles at most once. Settling removes the listener, closes the
    window if the session manages it, and calls the outcome callback,
    which is called exactly when the session has settled.
  - A caller's window is managed (resized, moved and closed) only when
    `managePaymentWindow` is set.

The table below cites, for each member, the test assertions it states.
Three choices fill gaps that the tests leave open:

- **Check order.** The test-receipt gate is applied before the allow-list
  of verification authorities. The tests cannot tell the two orders apart:
  every test receipt in them names an allowed authority.
- **Error codes.** A `failed` message with an empty or missing `errorCode`
  settles with `PAY_WINDOW_FAIL_MESSAGE`. A message whose `data` or
  `status` is missing settles with `UNKNOWN_MESSAGE_STATUS`.
- **Presence of store data.** Presence is JavaScript truthiness, as for
  the product URL. So store data that is the empty string, or any other
  falsy value (`null`, `false`, `0`), is refused as missing
  (`MissingStoredata`); a truthy value that is not a string is refused
  as not a string. The tests send neither an empty string nor another
  falsy value.

Modules, one file each:

- `Wrappers`: `Option`, `Result`.
- `Text`: search, split, join and first-occurrence replace on strings.
- `Url`: origin extraction and scheme stripping.
- `Base64`: encoding as the browser's `btoa` does it. Decoding is forgiving:
  it strips ASCII whitespace and at most two trailing `=` on a length
  that is a multiple of four.
- `Json`: JSON values; member lookup in which the last duplicate key wins.
- `Token`: the token and receipt decoding.
- `Receipts`: the verifier.
- `Pay`: the payment-window protocol.
- `Purchase`: the session.

## Model

| member | source | states |
|---|---|---|
| Receipts.VerifyData | tests/test-receipts-verify-data.js:25-30 | A value that is not a string is an invalid receipt. An accepted receipt decodes. Its claims read back as the result. A test receipt is accepted only in test mode. A real one only from an allowed authority with a product URL bound to the application. A receipt that does not decode is invalid for the decoding error. A decodable receipt whose claims cannot be read is invalid for the reason reading gives. A test-receipt refusal happens only outside test mode, for a receipt that decodes and reads as a test receipt, with its payload attached. |
| Token.DecodeReceipt | tests/test-receipts-verify-data.js:32-37 | More than one `~` makes the receipt malformed with too many key segments. |
| Token.TooManyKeySegmentsExample | tests/test-receipts-verify-data.js:33 | The receipt `one~too~many` fails with too many key segments, whatever the JSON parser. |
| Receipts.TooManyKeySegmentsRejected | tests/test-receipts-verify-data.js:32-37 | `one~too~many` is an invalid receipt, for too many key segments. |
| Token.KeyPrefixSkipped | tests/test-receipts-verify-data.js:32-44 | A receipt with one key prefix decodes as the token after the `~`. A receipt with no `~` decodes as the token itself. |
| Token.DecodeJwt | tests/test-receipts-verify-data.js:39-62 | A token that does not split into three segments fails with a wrong segment count. A token of three segments fails as having an empty segment exactly when one of them is empty, so a decoded token has three non-empty segments. A successful decode means the middle segment is base64 and the parser accepts its bytes, giving the result. |
| Token.TooFewSegmentsExample | tests/test-receipts-verify-data.js:40 | The token `one.two` fails with a wrong segment count. |
| Receipts.TooFewSegmentsRejected | tests/test-receipts-verify-data.js:39-44 | `one.two` is an invalid receipt, for its segment count. |
| Token.ForeignPayloadRejected | tests/test-receipts-verify-data.js:46-53 | A payload segment containing a character outside the base64 alphabet, `=` and whitespace fails as bad base64. |
| Receipts.BadBase64Rejected | tests/test-receipts-verify-data.js:46-53 | A receipt whose payload segment holds such a character is invalid as bad base64. |
| Base64.Decode | tests/test-receipts-verify-data.js:46-53 | A text that decodes holds only alphabet characters, `=` and whitespace. |
| Base64.Encode | tests/test-receipts-verify-data.js:56 | The encoding's length is a multiple of four. Every character is in the alphabet or is `=`. |
| Base64.SextetsLength | tests/test-receipts-verify-data.js:56 | The six-bit value count of `n` bytes is a multiple of four plus nothing, two or three, as `n` leaves remainder 0, 1 or 2 by three. It is at least two for any non-empty input. |
| Base64.FromToSextets | tests/test-receipts-verify-data.js:56 | Splitting bytes into 6-bit values and packing them back gives the bytes back. |
| Base64.DecodeEncode | tests/test-receipts-verify-data.js:55-62 | Decoding the encoding of any bytes gives the bytes back. |
| Token.EncodedHasNoSeparator | tests/test-receipts-verify-data.js:56 | Base64 text contains neither `.` nor `~`. |
| Token.DecodeEncodeJwt | tests/test-receipts-verify-data.js:55-62 | A token built from a header, payload bytes and a signature decodes to what the parser makes of the bytes, or fails as bad JSON when it rejects them. |
| Receipts.BadJsonRejected | tests/test-receipts-verify-data.js:55-62 | A token whose payload bytes are not JSON is an invalid receipt, as bad JSON. |
| Text.Split | tests/test-receipts-verify-data.js:39-44 | Splitting gives at least one part. No part contains the separator. The parts joined with it give the text back. |
| Text.SplitJoin | tests/test-receipts-verify-data.js:32-44 | Splitting the join of separator-free parts gives the parts back. |
| Json.Lookup | tests/test-receipts-verify-data.js:64-92 | A key is found exactly when the object has it, and the value found is the last one given for it. |
| Receipts.ReadFields | tests/test-receipts-verify-data.js:64-92 | The claims are read exactly when the product URL is present and truthy, the store data is a non-empty string, and `verify` is a string with an origin. The claims are then those field values. A missing or falsy product URL is reported before anything else. |
| Receipts.ReadClaims | tests/test-receipts-verify-data.js:64-92 | A non-object is refused. Read claims have a truthy product URL, non-empty string store data, an absolute verification URL, and the payload's `typ`, each taken from its field. |
| Receipts.MissingProductUrlRejected | tests/test-receipts-verify-data.js:64-83 | A product with store data but no URL is refused as missing its product URL. So is an empty product. |
| Receipts.MissingStoredataRejected | tests/test-receipts-verify-data.js:75-83 | A product with a URL but no store data is refused as missing its store data. The test's own payload, `{product: {}}`, lacks the URL too; the model refuses that one as missing its product URL (Receipts.MissingProductUrlRejected), since the URL is read first. |
| Receipts.NonStringStoredataRejected | tests/test-receipts-verify-data.js:85-92 | Store data that is an object is refused as not a string. |
| Receipts.ReadClaimsPayload | tests/test-receipts-verify-data.js:200-209 | Claims written into a payload as the issuer writes it read back unchanged exactly when they are well formed. |
| Receipts.EncodedReceiptJudgedByTrust | tests/test-receipts-verify-data.js:200-209 | A receipt built from well-formed claims passes every structural check. It is judged by the trust rules alone. |
| Receipts.CheckTrust | tests/test-receipts-verify-data.js:94-197 | A test receipt is accepted exactly in test mode. A real receipt is accepted exactly when its authority is allowed and its product URL is bound to the application. A test-receipt refusal happens exactly for a test receipt outside test mode. |
| Receipts.PackagedBinding | tests/test-receipts-verify-data.js:94-100 | In packaged mode a real receipt from an allowed authority is accepted exactly when its product URL is the application's origin, in full or without the scheme. Otherwise it is refused as a foreign product URL. |
| Receipts.BareAppOriginExample | tests/test-receipts-verify-data.js:131-139 | The product URL `the-origin` is bound to the application `app://the-origin`. |
| Receipts.PrefixedAppOriginExample | tests/test-receipts-verify-data.js:141-148 | `app://the-app` is bound to itself. `wrong-app` is not bound to it. |
| Receipts.HostedAppOriginExample | tests/test-receipts-verify-data.js:150-166 | The `http` and `https` hosted-app origins are each bound to themselves. |
| Url.StripSchemeOf | tests/test-receipts-verify-data.js:131-139 | Stripping the scheme of `scheme://rest` leaves `rest`. |
| Receipts.HostedBinding | tests/test-receipts-verify-data.js:102-115 | In hosted mode a real receipt from an allowed authority is accepted exactly when its product URL is the page's origin. Otherwise it is refused as a foreign product URL. |
| Receipts.HostedExample | tests/test-receipts-verify-data.js:117-129 | For a page at `http://some-site.com`, a receipt from the allowed authority is accepted exactly when its product URL is that origin. |
| Receipts.TestReceiptGate | tests/test-receipts-verify-data.js:168-177 | A test receipt is accepted exactly in test mode, whatever its product URL. Outside test mode it is refused as a test receipt, with its payload attached. |
| Receipts.VerifySiteGate | tests/test-receipts-verify-data.js:179-187 | A real receipt whose authority is not allowed is invalid for that reason, whatever its product URL. |
| Receipts.VerifySiteOfUrl | tests/test-receipts-verify-data.js:11 | A verification URL `scheme://host/path` is allowed exactly when `scheme://host` is an allowed site. |
| Url.UrlOrigin | tests/test-web-purchase.js:193-196 | An origin is a prefix of the URL. A URL with an origin contains `://`. |
| Url.OriginOfUrl | tests/test-web-purchase.js:195 | The origin of `scheme://host` followed by a path is `scheme://host`. |
| Url.OriginIsIdempotent | tests/test-web-purchase.js:195 | An origin is its own origin. |
| Pay.JwtType | tests/test-web-purchase.js:4-5 | A token's type is read exactly from a decodable token whose payload has a string `typ`, and it is that string. |
| Pay.JwtTypeOfEncoded | tests/test-web-purchase.js:4-5 | A token built from a payload `{typ: t}` has type `t`. |
| Pay.ProcessPayment | tests/test-web-purchase.js:201-209 | No window fails with `MISSING_PAYMENT_WINDOW`. With a window, failure (`UNEXPECTED_JWT_TYPE`) happens exactly when the token's type has no template. On success the window shows the template with `{jwt}` replaced by the token, and messages are expected from the template's origin. It is not closed. It is resized and moved once exactly when asked. |
| Text.ReplaceFirst | tests/test-web-purchase.js:74-75 | Without the pattern the text is unchanged. Otherwise the first occurrence, and only it, is replaced. |
| Pay.SubstitutedTemplate | tests/test-web-purchase.js:71-86 | A template whose `{jwt}` comes before any other `{` becomes the URL with the token in the placeholder's place. |
| Pay.AcceptPayMessage | tests/test-web-purchase.js:229-286 | These hold whatever the message says. A foreign origin gives `UNKNOWN_MESSAGE_ORIGIN`. Payment happens exactly on `ok` from the expected origin. The close check is armed exactly on `unloaded`. `failed` passes on a non-empty error code, or `PAY_WINDOW_FAIL_MESSAGE` when there is none. Missing data, a missing status or an unknown status gives `UNKNOWN_MESSAGE_STATUS`. |
| Purchase.Start | tests/test-web-purchase.js:105-146 | A new session awaits the token, satisfies the session invariant, and manages its window exactly when it opened it itself or was asked to. |
| Purchase.Settle | tests/test-web-purchase.js:71-103 | Settling calls the callback once with the outcome, removes the listener, closes a managed window once, and leaves an unmanaged window exactly as it was. The window is never resized or moved on settling. |
| Purchase.OnMessage | tests/test-web-purchase.js:193-196 | Handling a message while one is awaited keeps the session invariant. |
| Purchase.OnAdapterResult | tests/test-web-purchase.js:148-190 | Handling the adapter's answer keeps the session invariant. |
| Purchase.Step | tests/test-web-purchase.js:71-190 | Every event keeps the session invariant. A settled session keeps its outcome, callback calls and window closes. No event changes who manages the window. |
| Purchase.Run | tests/test-web-purchase.js:71-190 | Every sequence of events keeps the session invariant and who manages the window. |
| Purchase.AtMostOneCallback | tests/test-web-purchase.js:71-190 | From a new session, whatever the events, the callback is called at most once, and exactly when the session is settled. |
| Purchase.SettledIsFinal | tests/test-web-purchase.js:71-190 | No events after settling change the outcome, the callback calls or the window closes. |
| Purchase.UnmanagedWindowUntouched | tests/test-web-purchase.js:128-146 | Whatever the events, a caller's window without the manage flag is never closed, resized or moved. |
| Purchase.ManagedWindowClosedOnSettle | tests/test-web-purchase.js:71-126 | A managed window is closed, once, whenever the session settles. |
| Purchase.AdapterErrorPassedThrough | tests/test-web-purchase.js:148-172 | An adapter error settles the session with that very error. The window is closed exactly when managed. |
| Purchase.UnexpectedJwtTypeSettles | tests/test-web-purchase.js:174-190 | A token of a type without a template settles with `UNEXPECTED_JWT_TYPE`. The window is closed exactly when managed. |
| Purchase.PaymentStarted | tests/test-web-purchase.js:105-126 | A token of a known type starts the payment. The window shows the template with the token substituted, the listener awaits the template's origin, and no callback is made. A caller's managed window is resized and moved once. |
| Purchase.OkSettlesPaid | tests/test-web-purchase.js:80-85 | `ok` from the awaited origin settles as paid. It closes a managed window and leaves its address, size and position alone. |
| Purchase.SuccessfulPurchase | tests/test-web-purchase.js:71-86 | Token, then `ok` from the provider's origin, settles as paid with the substituted URL shown. The window is closed exactly when managed, and resized and moved exactly when the caller's window is managed. |
| Purchase.ProviderFailurePassedThrough | tests/test-web-purchase.js:88-103 | A `failed` message with an error code settles with that code. A managed window is closed. |
| Purchase.ForeignMessageNeverPays | tests/test-web-purchase.js:278-286 | While a message is awaited, one from another origin settles with `UNKNOWN_MESSAGE_ORIGIN`. Only `ok` from the expected origin settles as paid. Outside those phases messages change nothing. |
| Purchase.NoSettlementBeforeDelay | tests/test-web-purchase.js:288-298 | While a look at the window is due, any ticks adding up to less than the time remaining only count it down: no settlement, no callback, nothing else changed. |
| Purchase.CloseCheckAtDelay | tests/test-web-purchase.js:288-298 | The tick with which the elapsed time first reaches the time remaining makes the look: the session settles, with `DIALOG_CLOSED_BY_USER`, exactly when the window is closed, and otherwise awaits messages again without a callback. |
| Purchase.AbandonmentDetected | tests/test-web-purchase.js:288-298 | After `unloaded` nothing settles before 300 ms. At 300 ms a closed window settles with `DIALOG_CLOSED_BY_USER`, and an open one returns to awaiting messages with no callback. |

## Left out

- `tasks/ghdeploy.js` (deployment of the documentation site) is not part of this model.
- The DOM and `postMessage`: windows, listeners and messages are plain values. The browser's event loop is the explicit event sequence.
- Wall-clock time: the timer is a countdown advanced by `Tick` events.
- Receipt signatures and the remote verification request: they belong to the authority named by `verify`, not to `verifyData`.
- The adapter's internals (the transaction request to the marketplace API) and what follows a paid purchase (fetching and storing the receipt). Only the adapter's answer, a token or an error, enters the model.
- JSON text parsing: the parser is a parameter of the model (`Token.Parser`). JSON numbers are integers, since a number is read only for its truthiness (whether it is zero).
- Json.Lookup: the model's objects are member lists, so JavaScript's own-property and prototype lookups are not modelled.
- Text.ReplaceFirst: the `$` substitution patterns of JavaScript's `String.prototype.replace` are not modelled; the token is inserted literally.
- Purchase.OnMessage: a second `unloaded` while a look at the window is due keeps the earlier timer instead of arming a second one. The model's contract states only the invariant.
- Pay.ProcessPayment: requires every provider URL template to be an absolute URL, so the model does not cover a template without an origin. The tests take the origin of the template as the origin the provider's messages come from (tests/test-web-purchase.js:195), which presumes the template has one.
- Receipts.VerifyData: the product passed in is not consulted by any check. The tests never vary the product, and none of the ordered checks they exercise compares a claim with it, so the model states no check against the product.
- Url.UrlOrigin: ports and user-info are not separated from the host. The origin is the scheme, `://` and everything up to the first `/`, `?` or `#`.
- Token.DecodeJwt: a payload segment in the URL-safe base64 alphabet of RFC 7515 (holding `-` or `_`) is refused as bad base64; the model decodes only the standard alphabet and does not accept base64url.
- Purchase.AtMostOneCallback: settling is not guaranteed. A window the user closes without the page posting `unloaded`, or a provider that never answers, leaves the session waiting; the model promises at most one callback, not exactly one.
- Pay.ProcessPayment: the configured native payment handle (`mozPay`) is not modelled. The tests switch it off before expecting `MISSING_PAYMENT_WINDOW`, and the model is the behaviour with it off; what happens with a native handle configured is not stated.

=== FILE: base64.dfy ===
/** Base64 with the standard alphabet of section 4 of RFC 4648. Encoding
    is the browser's `btoa`, with which the tests build token payloads
    (always padded with "="). Decoding is forgiving: ASCII whitespace is
    ignored, padding is optional, and leftover low bits of a final partial
    group are dropped. */
module Base64 {
  import opened Wrappers

  type byte = x: int | 0 <= x < 256
  type sextet = x: int | 0 <= x < 64

  predicate IsAlphabetChar(c: char) {
    ('A' <= c <= 'Z') || ('a' <= c <= 'z') || ('0' <= c <= '9') || c == '+' || c == '/'
  }

  /** ASCII whitespace, which the decoder skips. */
  predicate IsWhitespace(c: char) {
    c == ' ' || c == '\t' || c == '\n' || c == '\r' || c == '\U{000C}'
  }

  /** The six-bit value an alphabet character stands for. */
  function CharValue(c: char): (v: sextet)
    requires IsAlphabetChar(c)
  {
    if 'A' <= c <= 'Z' then c as int - 'A' as int
    else if 'a' <= c <= 'z' then c as int - 'a' as int + 26
    else if '0' <= c <= '9' then c as int - '0' as int + 52
    else if c == '+' then 62
    else 63
  }

  /** The alphabet character for a six-bit value; it is the only character
      `CharValue` maps to that value. */
  function ValueChar(v: sextet): (c: char)
    ensures IsAlphabetChar(c) && CharValue(c) == v
    ensures forall d :: IsAlphabetChar(d) && CharValue(d) == v ==> d == c
  {
    if v < 26 then ('A' as int + v) as char
    else if v < 52 then ('a' as int + v - 26) as char
    else if v < 62 then ('0' as int + v - 52) as char
    else if v == 62 then '+'
    else '/'
  }

  /** Three bytes spread over four six-bit values. */
  function Group(b0: byte, b1: byte, b2: byte): (v: seq<sextet>)
    ensures |v| == 4
  {
    [b0 / 4, (b0 % 4) * 16 + b1 / 16, (b1 % 16) * 4 + b2 / 64, b2 % 64]
  }

  /** A final single byte over two six-bit values, zero-filled. */
  function GroupOfOne(b0: byte): (v: seq<sextet>)
    ensures |v| == 2
  {
    [b0 / 4, (b0 % 4) * 16]
  }

  /** A final pair of bytes over three six-bit values, zero-filled. */
  function GroupOfTwo(b0: byte, b1: byte): (v: seq<sextet>)
    ensures |v| == 3
  {
    [b0 / 4, (b0 % 4) * 16 + b1 / 16, (b1 % 16) * 4]
  }

  /** The bytes cut into six-bit groups, most significant bits first; a
      final partial group is filled with zero bits. */
  function ToSextets(b: seq<byte>): (v: seq<sextet>)
  {
    if |b| == 0 then []
    else if |b| == 1 then GroupOfOne(b[0])
    else if |b| == 2 then GroupOfTwo(b[0], b[1])
    else Group(b[0], b[1], b[2]) + ToSextets(b[3..])
  }

  /** The bytes of a group of four six-bit values, one function per byte. */
  function First(v0: sextet, v1: sextet): byte {
    (v0 as int) * 4 + (v1 as int) / 16
  }

  function Second(v1: sextet, v2: sextet): byte {
    ((v1 as int) % 16) * 16 + (v2 as int) / 4
  }

  function Third(v2: sextet, v3: sextet): byte {
    ((v2 as int) % 4) * 64 + v3 as int
  }

  /** Six-bit groups reassembled into bytes; the low bits of a final partial
      group that do not fill a byte are dropped, and so is a lone trailing
      value (which `Decode` refuses before it gets here). */
  function FromSextets(v: seq<sextet>): (b: seq<byte>)
  {
    if |v| < 2 then []
    else if |v| == 2 then [First(v[0], v[1])]
    else if |v| == 3 then [First(v[0], v[1]), Second(v[1], v[2])]
    else [First(v[0], v[1]), Second(v[1], v[2]), Third(v[2], v[3])] + FromSextets(v[4..])
  }

  /** The bit arithmetic of one group: each byte is recovered from the
      six-bit values it was spread over. */
  lemma GroupRoundTrip(b0: byte, b1: byte, b2: byte)
    ensures First(b0 / 4, (b0 % 4) * 16 + b1 / 16) == b0
    ensures Second((b0 % 4) * 16 + b1 / 16, (b1 % 16) * 4 + b2 / 64) == b1
    ensures Third((b1 % 16) * 4 + b2 / 64, b2 % 64) == b2
  {
  }

  /** A final single byte comes back from its two six-bit values. */
  lemma GroupOfOneRoundTrip(b0: byte)
    ensures FromSextets(GroupOfOne(b0)) == [b0]
  {
    var v := GroupOfOne(b0);
    assert FromSextets(v) == [First(v[0], v[1])];
    assert v[1] / 16 == b0 % 4;
  }

  /** A final pair of bytes comes back from its three six-bit values. */
  lemma GroupOfTwoRoundTrip(b0: byte, b1: byte)
    ensures FromSextets(GroupOfTwo(b0, b1)) == [b0, b1]
  {
    var v := GroupOfTwo(b0, b1);
    assert FromSextets(v) == [First(v[0], v[1]), Second(v[1], v[2])];
    GroupRoundTrip(b0, b1, 0);
  }

  /** Decoding four six-bit values in front of more groups yields their
      three bytes in front of the rest. */
  lemma FromSextetsFront(g: seq<sextet>, rest: seq<sextet>)
    requires |g| == 4
    ensures FromSextets(g + rest) == [First(g[0], g[1]), Second(g[1], g[2]), Third(g[2], g[3])] + FromSextets(rest)
  {
    assert (g + rest)[4..] == rest;
  }

  /** Decoding a full group in front of more groups yields its three bytes
      in front of the rest. */
  lemma FromSextetsGroup(b0: byte, b1: byte, b2: byte, rest: seq<sextet>)
    ensures FromSextets(Group(b0, b1, b2) + rest) == [b0, b1, b2] + FromSextets(rest)
  {
    var g := Group(b0, b1, b2);
    FromSextetsFront(g, rest);
    GroupRoundTrip(b0, b1, b2);
    assert First(g[0], g[1]) == b0;
    assert Second(g[1], g[2]) == b1;
    assert Third(g[2], g[3]) == b2;
  }

  /** Regrouping bits is lossless: the groups of a byte string give back
      exactly that byte string. */
  lemma {:induction false} FromToSextets(b: seq<byte>)
    ensures FromSextets(ToSextets(b)) == b
    decreases |b|
  {
    if |b| == 1 {
      GroupOfOneRoundTrip(b[0]);
    } else if |b| == 2 {
      GroupOfTwoRoundTrip(b[0], b[1]);
    } else if |b| >= 3 {
      FromToSextets(b[3..]);
      FromSextetsGroup(b[0], b[1], b[2], ToSextets(b[3..]));
      assert b == [b[0], b[1], b[2]] + b[3..];
    }
  }

  /** `btoa` writes four characters for every three bytes, and two or
      three for a final one or two: the count is a multiple of four plus
      nothing, two or three. */
  lemma {:induction false} SextetsLength(b: seq<byte>)
    ensures |ToSextets(b)| % 4 == (if |b| % 3 == 0 then 0 else |b| % 3 + 1)
    ensures |b| > 0 ==> |ToSextets(b)| >= 2
    decreases |b|
  {
    if |b| >= 3 {
      SextetsLength(b[3..]);
      assert |ToSextets(b)| == 4 + |ToSextets(b[3..])|;
      assert |b[3..]| % 3 == |b| % 3;
    }
  }

  function Chars(v: seq<sextet>): (s: string)
    ensures |s| == |v|
    ensures forall i :: 0 <= i < |s| ==> IsAlphabetChar(s[i]) && CharValue(s[i]) == v[i]
  {
    seq(|v|, i requires 0 <= i < |v| => ValueChar(v[i]))
  }

  function Values(s: string): (v: seq<sextet>)
    requires forall i :: 0 <= i < |s| ==> IsAlphabetChar(s[i])
    ensures |v| == |s|
    ensures forall i :: 0 <= i < |s| ==> ValueChar(v[i]) == s[i]
  {
    seq(|s|, i requires 0 <= i < |s| => CharValue(s[i]))
  }

  /** The padding `btoa` appends for a byte string of length `n`. */
  function Padding(n: nat): string {
    if n % 3 == 1 then "==" else if n % 3 == 2 then "=" else ""
  }

  /** `btoa`: bytes to padded base64 text. */
  function Encode(b: seq<byte>): (s: string)
    ensures |s| % 4 == 0
    ensures forall i :: 0 <= i < |s| ==> IsAlphabetChar(s[i]) || s[i] == '='
  {
    SextetsLength(b);
    Chars(ToSextets(b)) + Padding(|b|)
  }

  function RemoveWhitespace(s: string): (t: string)
    ensures forall i :: 0 <= i < |t| ==> !IsWhitespace(t[i])
  {
    if |s| == 0 then []
    else if IsWhitespace(s[0]) then RemoveWhitespace(s[1..])
    else [s[0]] + RemoveWhitespace(s[1..])
  }

  /** At most two "=" are removed, and only when the length is a multiple
      of four. */
  function StripPadding(t: string): (u: string)
  {
    if |t| % 4 == 0 && |t| >= 2 && t[|t| - 2..] == "==" then t[..|t| - 2]
    else if |t| % 4 == 0 && |t| >= 1 && t[|t| - 1] == '=' then t[..|t| - 1]
    else t
  }

  predicate AllAlphabet(u: string) {
    forall i :: 0 <= i < |u| ==> IsAlphabetChar(u[i])
  }

  /** Decoding of text whose whitespace and padding are already removed. */
  function DecodeUnpadded(u: string): Option<seq<byte>> {
    if |u| % 4 == 1 || !AllAlphabet(u) then None
    else Some(FromSextets(Values(u)))
  }

  /** Base64 text to bytes, or `None` when the text is not valid
      base64 (a character outside the alphabet, misplaced "=", or a length
      that leaves a lone six-bit group). */
  function Decode(s: string): (r: Option<seq<byte>>)
    ensures r.Some? ==> forall i :: 0 <= i < |s| ==> IsAlphabetChar(s[i]) || s[i] == '=' || IsWhitespace(s[i])
  {
    var u := StripPadding(RemoveWhitespace(s));
    var r := DecodeUnpadded(u);
    if r.Some? then
      assert forall i :: 0 <= i < |s| ==> IsAlphabetChar(s[i]) || s[i] == '=' || IsWhitespace(s[i]) by {
        forall i | 0 <= i < |s| && !IsWhitespace(s[i]) && s[i] != '='
          ensures IsAlphabetChar(s[i])
        {
          KeptByRemoveWhitespace(s, i);
          KeptByStripPadding(RemoveWhitespace(s), s[i]);
        }
      }
      r
    else r
  }

  lemma {:induction false} KeptByRemoveWhitespace(s: string, i: nat)
    requires i < |s| && !IsWhitespace(s[i])
    ensures s[i] in RemoveWhitespace(s)
    decreases |s|
  {
    if i > 0 {
      KeptByRemoveWhitespace(s[1..], i - 1);
    }
  }

  lemma KeptByStripPadding(t: string, c: char)
    requires c in t && c != '='
    ensures c in StripPadding(t)
  {
    var k :| 0 <= k < |t| && t[k] == c;
    if |t| % 4 == 0 && |t| >= 2 && t[|t| - 2..] == "==" {
      assert t[|t| - 2] == '=' && t[|t| - 1] == '=';
      assert StripPadding(t)[k] == c;
    } else if |t| % 4 == 0 && |t| >= 1 && t[|t| - 1] == '=' {
      assert StripPadding(t)[k] == c;
    }
  }

  lemma {:induction false} RemoveWhitespaceNoop(s: string)
    requires forall i :: 0 <= i < |s| ==> !IsWhitespace(s[i])
    ensures RemoveWhitespace(s) == s
    decreases |s|
  {
    if |s| > 0 {
      RemoveWhitespaceNoop(s[1..]);
      assert s == [s[0]] + s[1..];
    }
  }

  /** Padding is removed from a text whose length it completes to a
      multiple of four; a text not ending in "=" is left alone. */
  lemma StripTwo(body: string)
    requires (|body| + 2) % 4 == 0
    ensures StripPadding(body + "==") == body
  {
    var t := body + "==";
    assert t[|t| - 2..] == "==";
    assert t[..|t| - 2] == body;
  }

  lemma StripOne(body: string)
    requires (|body| + 1) % 4 == 0 && body[|body| - 1] != '='
    ensures StripPadding(body + "=") == body
  {
    var t := body + "=";
    assert t[|t| - 2] == body[|body| - 1];
    assert t[|t| - 2..] != "==";
    assert t[..|t| - 1] == body;
  }

  lemma StripNone(t: string)
    requires |t| == 0 || t[|t| - 1] != '='
    ensures StripPadding(t) == t
  {
    if |t| >= 2 {
      assert t[|t| - 2..][1] == t[|t| - 1];
    }
  }

  /** Removing the padding of `btoa`'s output leaves the characters of
      the six-bit groups. */
  lemma StripPaddingOfEncoded(b: seq<byte>)
    ensures StripPadding(Encode(b)) == Chars(ToSextets(b))
  {
    var body := Chars(ToSextets(b));
    SextetsLength(b);
    assert Encode(b) == body + Padding(|b|);
    if |b| % 3 == 1 {
      StripTwo(body);
    } else if |b| % 3 == 2 {
      assert IsAlphabetChar(body[|body| - 1]);
      StripOne(body);
    } else {
      assert body + Padding(|b|) == body;
      if |body| > 0 {
        assert IsAlphabetChar(body[|body| - 1]);
      }
      StripNone(body);
    }
  }

  lemma ValuesOfChars(v: seq<sextet>)
    ensures Values(Chars(v)) == v
  {
    var s := Chars(v);
    forall i | 0 <= i < |v|
      ensures Values(s)[i] == v[i]
    {
      assert CharValue(s[i]) == v[i];
    }
  }

  lemma DecodeUnpaddedOfChars(b: seq<byte>)
    ensures DecodeUnpadded(Chars(ToSextets(b))) == Some(b)
  {
    var v := ToSextets(b);
    var u := Chars(v);
    assert |u| % 4 != 1 by {
      SextetsLength(b);
    }
    assert AllAlphabet(u);
    ValuesOfChars(v);
    FromToSextets(b);
  }

  /** Decoding undoes encoding, for every byte string. */
  lemma DecodeEncode(b: seq<byte>)
    ensures Decode(Encode(b)) == Some(b)
  {
    var s := Encode(b);
    RemoveWhitespaceNoop(s);
    StripPaddingOfEncoded(b);
    DecodeUnpaddedOfChars(b);
  }
}

=== FILE: json.dfy ===
/** The JSON values a decoded token payload can hold, and the two ways the
    receipt code reads them: property lookup and JavaScript truthiness. */
module Json {
  import opened Wrappers

  /** Numbers are modelled as integers: the checks read a number only for
      its truthiness (whether it is zero), never its fraction. */
  datatype Json =
    | JNull
    | JBool(b: bool)
    | JNumber(n: int)
    | JString(s: string)
    | JArray(items: seq<Json>)
    | JObject(members: seq<(string, Json)>)

  /** `members` has a member named `key`. */
  predicate HasKey(members: seq<(string, Json)>, key: string) {
    exists i :: 0 <= i < |members| && members[i].0 == key
  }

  /** A member other than `key` at the end changes nothing about whether
      `key` is present. */
  lemma HasKeyBeforeLast(members: seq<(string, Json)>, last: (string, Json), key: string)
    requires last.0 != key
    ensures HasKey(members + [last], key) <==> HasKey(members, key)
  {
    if HasKey(members + [last], key) {
      var i :| 0 <= i < |members + [last]| && (members + [last])[i].0 == key;
      assert members[i].0 == key;
    }
    if HasKey(members, key) {
      var i :| 0 <= i < |members| && members[i].0 == key;
      assert (members + [last])[i].0 == key;
    }
  }

  /** The value of `key` among `members`; as with `JSON.parse`, a key given
      twice takes its last value. */
  function Lookup(members: seq<(string, Json)>, key: string): (r: Option<Json>)
    ensures r.Some? <==> HasKey(members, key)
    ensures r.Some? ==>
              exists i :: 0 <= i < |members| && members[i] == (key, r.value) && !HasKey(members[i + 1..], key)
  {
    if |members| == 0 then None
    else
      var n := |members| - 1;
      if members[n].0 == key then
        assert !HasKey(members[n + 1..], key);
        Some(members[n].1)
      else
        var init := members[..n];
        var r := Lookup(init, key);
        assert members == init + [members[n]];
        HasKeyBeforeLast(init, members[n], key);
        if r.Some? then
          var i :| 0 <= i < n && init[i] == (key, r.value) && !HasKey(init[i + 1..], key);
          assert members[i + 1..] == init[i + 1..] + [members[n]];
          HasKeyBeforeLast(init[i + 1..], members[n], key);
          assert members[i] == (key, r.value);
          Some(r.value)
        else
          None
  }

  /** `value.key` in JavaScript for a parsed JSON value: a property of an
      object, absent for everything else. */
  function Field(value: Json, key: string): (r: Option<Json>)
    ensures r.Some? ==> value.JObject? && HasKey(value.members, key)
  {
    if value.JObject? then Lookup(value.members, key) else None
  }

  /** JavaScript's truthiness of a JSON value: `null`, `false`, `0` and the
      empty string are falsy; every array and object is truthy. */
  predicate Truthy(value: Json) {
    match value
    case JNull => false
    case JBool(b) => b
    case JNumber(n) => n != 0
    case JString(s) => s != ""
    case JArray(_) => true
    case JObject(_) => true
  }

  /** Lookups in a literal object of two members with distinct keys. */
  lemma LookupTwo(k1: string, v1: Json, k2: string, v2: Json)
    requires k1 != k2
    ensures Lookup([(k1, v1), (k2, v2)], k1) == Some(v1)
    ensures Lookup([(k1, v1), (k2, v2)], k2) == Some(v2)
    ensures forall k :: k != k1 && k != k2 ==> Lookup([(k1, v1), (k2, v2)], k) == None
  {
    assert [(k1, v1), (k2, v2)][..1] == [(k1, v1)];
    assert [(k1, v1)][..0] == [];
  }

  /** Lookups in a literal object of three members with distinct keys. */
  lemma LookupThree(k1: string, v1: Json, k2: string, v2: Json, k3: string, v3: Json)
    requires k1 != k2 && k1 != k3 && k2 != k3
    ensures Lookup([(k1, v1), (k2, v2), (k3, v3)], k1) == Some(v1)
    ensures Lookup([(k1, v1), (k2, v2), (k3, v3)], k2) == Some(v2)
    ensures Lookup([(k1, v1), (k2, v2), (k3, v3)], k3) == Some(v3)
  {
    assert [(k1, v1), (k2, v2), (k3, v3)][..2] == [(k1, v1), (k2, v2)];
    LookupTwo(k1, v1, k2, v2);
  }
}

=== FILE: pay.dfy ===
/** The payment-window protocol: starting a payment in a window from a
    transaction token (`pay.processPayment`) and judging the messages the
    provider's window posts back (`pay.acceptPayMessage`). */
module Pay {
  import opened Wrappers
  import opened Json
  import Token
  import Text
  import Url
  import Base64

  /** What the outcome callback receives: `null` for a completed payment,
      or an error code. */
  datatype Outcome = Paid | Failed(code: string)

  const UnknownMessageOrigin := "UNKNOWN_MESSAGE_ORIGIN"
  const UnknownMessageStatus := "UNKNOWN_MESSAGE_STATUS"
  const PayWindowFailMessage := "PAY_WINDOW_FAIL_MESSAGE"
  const DialogClosedByUser := "DIALOG_CLOSED_BY_USER"
  const MissingPaymentWindow := "MISSING_PAYMENT_WINDOW"
  const UnexpectedJwtType := "UNEXPECTED_JWT_TYPE"

  /** The placeholder in a provider URL template that the token replaces. */
  const JwtPlaceholder := "{jwt}"

  /** How long after an "unloaded" message the window is looked at again. */
  const GraceDelayMs: nat := 300

  /** A payment window as the session sees it: whether it is closed, the
      address it shows, and how many times the session has closed, resized
      and moved it. */
  datatype Window = Window(closed: bool, location: string, closeCalls: nat, resizeCalls: nat, moveCalls: nat)

  /** A window the session has not touched yet. */
  function FreshWindow(closed: bool, location: string): (w: Window)
    ensures w.closeCalls == 0 && w.resizeCalls == 0 && w.moveCalls == 0
  {
    Window(closed, location, 0, 0, 0)
  }

  /** `window.close()`. */
  function CloseWindow(w: Window): (w': Window)
    ensures w'.closed && w'.closeCalls == w.closeCalls + 1
    ensures w'.location == w.location && w'.resizeCalls == w.resizeCalls && w'.moveCalls == w.moveCalls
  {
    w.(closed := true, closeCalls := w.closeCalls + 1)
  }

  /** The payload of a posted message. */
  datatype MessageData = MessageData(status: Option<string>, errorCode: Option<string>)

  /** A posted message: the sender's origin and its data (`None` for null). */
  datatype PayMessage = PayMessage(origin: string, data: Option<MessageData>)

  /** What a message asks of the session: settle now, or look at the window
      again after the grace delay. */
  datatype Dispatch = Resolve(outcome: Outcome) | AwaitClosedCheck

  /** The message comes from the expected sender and carries `status`. */
  predicate HasStatus(msg: PayMessage, expectedOrigin: string, status: string) {
    msg.origin == expectedOrigin && msg.data.Some? && msg.data.value.status == Some(status)
  }

  /** `pay.acceptPayMessage`: a message from any other origin is refused
      whatever it says; "ok" completes the payment; "failed" fails with the
      provider's error code, or a generic one when it gives none; "unloaded"
      defers to a later look at the window; anything else, a missing status
      or missing data included, is an unknown status. */
  function AcceptPayMessage(msg: PayMessage, expectedOrigin: string): (d: Dispatch)
    ensures msg.origin != expectedOrigin ==> d == Resolve(Failed(UnknownMessageOrigin))
    ensures d == Resolve(Paid) <==> HasStatus(msg, expectedOrigin, "ok")
    ensures d == AwaitClosedCheck <==> HasStatus(msg, expectedOrigin, "unloaded")
    ensures HasStatus(msg, expectedOrigin, "failed") ==> d.Resolve? && d.outcome.Failed?
    ensures (&& HasStatus(msg, expectedOrigin, "failed")
             && msg.data.value.errorCode.Some? && msg.data.value.errorCode.value != "") ==>
              d == Resolve(Failed(msg.data.value.errorCode.value))
    ensures (HasStatus(msg, expectedOrigin, "failed") && msg.data.value.errorCode in {None, Some("")}) ==>
              d == Resolve(Failed(PayWindowFailMessage))
    ensures msg.origin == expectedOrigin &&
            (msg.data.None? || msg.data.value.status.None? || msg.data.value.status.value !in {"ok", "failed", "unloaded"}) ==>
              d == Resolve(Failed(UnknownMessageStatus))
    ensures d.Resolve? && d.outcome.Failed? ==> d.outcome.code != ""
    ensures (&& d.Resolve? && d.outcome.Failed?
             && d.outcome.code !in {UnknownMessageOrigin, UnknownMessageStatus, PayWindowFailMessage}) ==>
              HasStatus(msg, expectedOrigin, "failed") && msg.data.value.errorCode == Some(d.outcome.code)
  {
    if msg.origin != expectedOrigin then Resolve(Failed(UnknownMessageOrigin))
    else if msg.data.None? || msg.data.value.status.None? then Resolve(Failed(UnknownMessageStatus))
    else
      var data := msg.data.value;
      var status := data.status.value;
      if status == "ok" then Resolve(Paid)
      else if status == "failed" then
        if data.errorCode.Some? && data.errorCode.value != "" then Resolve(Failed(data.errorCode.value))
        else Resolve(Failed(PayWindowFailMessage))
      else if status == "unloaded" then AwaitClosedCheck
      else Resolve(Failed(UnknownMessageStatus))
  }

  /** The `typ` claim of a transaction token, when the token decodes and
      the claim is a string. */
  function JwtType(jwt: string, parse: Token.Parser): (t: Option<string>)
    ensures t.Some? ==> Token.DecodeJwt(jwt, parse).Success? &&
                        Field(Token.DecodeJwt(jwt, parse).value, "typ") == Some(JString(t.value))
    ensures Token.DecodeJwt(jwt, parse).Success? ==>
              var typ := Field(Token.DecodeJwt(jwt, parse).value, "typ");
              typ.Some? && typ.value.JString? ==> t == Some(typ.value.s)
  {
    match Token.DecodeJwt(jwt, parse)
    case Failure(_) => None
    case Success(payload) =>
      match Field(payload, "typ")
      case Some(JString(t)) => Some(t)
      case _ => None
  }

  /** Every provider URL template is an absolute URL, so that the origin
      the provider's messages must come from is known. */
  predicate ValidProviderUrls(providerUrls: map<string, string>) {
    forall typ :: typ in providerUrls ==> Url.UrlOrigin(providerUrls[typ]).Some?
  }

  /** A payment under way: the window showing the provider's page and the
      origin its messages must come from. */
  datatype PayStart = PayStart(window: Window, expectedOrigin: string)

  /** `pay.processPayment`: refuses to start without a window; otherwise
      picks the provider URL template for the token's type (a token that
      does not decode or whose type has no template is refused), points
      the window at the template with the token substituted, and, when
      asked to, resizes and moves the window. */
  function ProcessPayment(jwt: string, paymentWindow: Option<Window>, reposition: bool,
                          providerUrls: map<string, string>, parse: Token.Parser): (r: Result<PayStart, string>)
    requires ValidProviderUrls(providerUrls)
    ensures paymentWindow.None? ==> r == Failure(MissingPaymentWindow)
    ensures paymentWindow.Some? ==>
              (r.Failure? <==> JwtType(jwt, parse).None? || JwtType(jwt, parse).value !in providerUrls)
    ensures paymentWindow.Some? && r.Failure? ==> r.error == UnexpectedJwtType
    ensures r.Success? ==>
              && paymentWindow.Some?
              && var w := paymentWindow.value;
              && var template := providerUrls[JwtType(jwt, parse).value];
              && r.value.window.location == Text.ReplaceFirst(template, JwtPlaceholder, jwt)
              && Url.UrlOrigin(template) == Some(r.value.expectedOrigin)
              && r.value.window.closed == w.closed
              && r.value.window.closeCalls == w.closeCalls
              && r.value.window.resizeCalls == w.resizeCalls + (if reposition then 1 else 0)
              && r.value.window.moveCalls == w.moveCalls + (if reposition then 1 else 0)
  {
    if paymentWindow.None? then Failure(MissingPaymentWindow)
    else
      var typ := JwtType(jwt, parse);
      if typ.None? || typ.value !in providerUrls then Failure(UnexpectedJwtType)
      else
        var template := providerUrls[typ.value];
        var w := paymentWindow.value.(location := Text.ReplaceFirst(template, JwtPlaceholder, jwt));
        var w' := if reposition then w.(resizeCalls := w.resizeCalls + 1, moveCalls := w.moveCalls + 1) else w;
        Success(PayStart(w', Url.UrlOrigin(template).value))
  }

  /** A template whose placeholder is the first "{" in it becomes the
      provider URL with the token in the placeholder's place. */
  lemma SubstitutedTemplate(prefix: string, suffix: string, jwt: string)
    requires '{' !in prefix
    ensures Text.ReplaceFirst(prefix + JwtPlaceholder + suffix, JwtPlaceholder, jwt) == prefix + jwt + suffix
  {
    var s := prefix + JwtPlaceholder + suffix;
    assert s == prefix + JwtPlaceholder + suffix;
    Text.FindAfterPrefix(prefix, JwtPlaceholder, suffix);
    assert s[..|prefix|] == prefix;
    assert s[|prefix| + |JwtPlaceholder|..] == suffix;
  }

  /** The type of a token built from a payload whose `typ` is the string
      `typ` is read back as `typ`. */
  lemma JwtTypeOfEncoded(header: string, bytes: seq<Base64.byte>, signature: string, typ: string, parse: Token.Parser)
    requires header != "" && '.' !in header
    requires signature != "" && '.' !in signature
    requires |bytes| > 0 && parse(bytes) == Some(JObject([("typ", JString(typ))]))
    ensures JwtType(Token.EncodeJwt(header, bytes, signature), parse) == Some(typ)
  {
    Token.DecodeEncodeJwt(header, bytes, signature, parse);
    assert [("typ", JString(typ))][..0] == [];
  }
}

=== FILE: purchase.dfy ===
/** The purchase session (`fxpay.purchase` on the web): a single-fire state
    machine driven by an explicit sequence of events: the adapter's answer
    to the transaction request, messages posted by the payment window,
    timer ticks, and the user closing the window. Its one outcome is
    recorded in `callbacks`, the list of calls made to the outcome
    callback. */
module Purchase {
  import opened Wrappers
  import opened Pay
  import Token
  import Text
  import Url

  /** The caller's options: a window to pay in, and whether the session may
      manage it (resize, move and close it). */
  datatype Options = Options(paymentWindow: Option<Window>, managePaymentWindow: bool)

  datatype Phase =
    | AwaitingToken
    | AwaitingMessage(expectedOrigin: string)
    | AwaitingCloseCheck(expectedOrigin: string, remainingMs: nat)
    | Settled(outcome: Outcome)

  /** A purchase session. `supplied` tells whether the caller supplied the
      window; `listening` whether the message listener is registered. */
  datatype Session = Session(
    productId: string,
    window: Window,
    managed: bool,
    supplied: bool,
    listening: bool,
    phase: Phase,
    callbacks: seq<Outcome>)

  datatype Event =
    | AdapterResult(result: Result<string, string>)
    | Message(msg: PayMessage)
    | Tick(ms: nat)
    | UserClosesWindow

  /** What holds of every session in every reachable state: the callback
      has been called once exactly when the session is settled, and with
      its outcome; the listener is registered exactly while a message is
      awaited; a window is closed by the session only on settling, only if
      managed, and then once; only a managed window the caller supplied is
      resized or moved, and at most once. */
  predicate Inv(s: Session) {
    && (if s.phase.Settled? then s.callbacks == [s.phase.outcome] else s.callbacks == [])
    && (s.listening <==> s.phase.AwaitingMessage? || s.phase.AwaitingCloseCheck?)
    && s.window.closeCalls == (if s.phase.Settled? && s.managed then 1 else 0)
    && (s.phase.Settled? && s.managed ==> s.window.closed)
    && (!s.supplied ==> s.managed)
    && s.window.resizeCalls == s.window.moveCalls <= 1
    && (s.window.resizeCalls == 1 ==> s.managed && s.supplied && !s.phase.AwaitingToken?)
  }

  /** `fxpay.purchase`: the session starts by adopting the caller's window
      or opening its own, which it then always manages; a caller's window
      is managed only on request. */
  function Start(productId: string, options: Options): (s: Session)
    ensures Inv(s) && s.phase == AwaitingToken && s.productId == productId
    ensures s.managed <==> options.paymentWindow.None? || options.managePaymentWindow
    ensures s.supplied <==> options.paymentWindow.Some?
    ensures options.paymentWindow.Some? ==> s.window.closed == options.paymentWindow.value.closed
  {
    match options.paymentWindow
    case None => Session(productId, FreshWindow(false, ""), true, false, false, AwaitingToken, [])
    case Some(w) =>
      Session(productId, FreshWindow(w.closed, w.location), options.managePaymentWindow, true, false, AwaitingToken, [])
  }

  /** The terminal transition: remove the listener, close the window if it
      is managed, and call the outcome callback. */
  function Settle(s: Session, outcome: Outcome): (t: Session)
    requires Inv(s) && !s.phase.Settled?
    ensures Inv(t) && t.phase == Settled(outcome) && t.callbacks == [outcome]
    ensures !t.listening
    ensures t.window.closeCalls == (if s.managed then 1 else 0)
    ensures t.managed == s.managed && t.supplied == s.supplied && t.productId == s.productId
    ensures t.window.location == s.window.location
    ensures t.window.resizeCalls == s.window.resizeCalls && t.window.moveCalls == s.window.moveCalls
    ensures !s.managed ==> t.window == s.window
  {
    s.(window := if s.managed then CloseWindow(s.window) else s.window,
       listening := false,
       phase := Settled(outcome),
       callbacks := s.callbacks + [outcome])
  }

  /** A message while one is awaited from `expectedOrigin`. A second
      "unloaded" while a look at the window is already due keeps the
      earlier, sooner one. */
  function OnMessage(s: Session, msg: PayMessage, expectedOrigin: string): (t: Session)
    requires Inv(s) && (s.phase.AwaitingMessage? || s.phase.AwaitingCloseCheck?)
    ensures Inv(t)
  {
    match AcceptPayMessage(msg, expectedOrigin)
    case Resolve(outcome) => Settle(s, outcome)
    case AwaitClosedCheck =>
      if s.phase.AwaitingCloseCheck? then s
      else s.(phase := AwaitingCloseCheck(expectedOrigin, GraceDelayMs))
  }

  /** The adapter's answer to the transaction request: an error settles
      the session with that very error; a token starts the payment in the
      window, or settles the session with the reason it cannot. */
  function OnAdapterResult(s: Session, result: Result<string, string>,
                           providerUrls: map<string, string>, parse: Token.Parser): (t: Session)
    requires ValidProviderUrls(providerUrls)
    requires Inv(s) && s.phase.AwaitingToken?
    ensures Inv(t)
  {
    match result
    case Failure(err) => Settle(s, Failed(err))
    case Success(jwt) =>
      match ProcessPayment(jwt, Some(s.window), s.managed && s.supplied, providerUrls, parse)
      case Failure(code) => Settle(s, Failed(code))
      case Success(start) =>
        s.(window := start.window, listening := true, phase := AwaitingMessage(start.expectedOrigin))
  }

  /** The session's answer to one event; events its phase does not expect
      change nothing but what the user did to the window. */
  function Step(s: Session, e: Event, providerUrls: map<string, string>, parse: Token.Parser): (t: Session)
    requires ValidProviderUrls(providerUrls)
    requires Inv(s)
    ensures Inv(t)
    ensures s.phase.Settled? ==> t.phase == s.phase && t.callbacks == s.callbacks && t.window.closeCalls == s.window.closeCalls
    ensures t.managed == s.managed && t.supplied == s.supplied && t.productId == s.productId
  {
    match e
    case UserClosesWindow => s.(window := s.window.(closed := true))
    case AdapterResult(result) =>
      if !s.phase.AwaitingToken? then s
      else OnAdapterResult(s, result, providerUrls, parse)
    case Message(msg) =>
      (match s.phase
       case AwaitingMessage(origin) => OnMessage(s, msg, origin)
       case AwaitingCloseCheck(origin, _) => OnMessage(s, msg, origin)
       case _ => s)
    case Tick(ms) =>
      match s.phase
      case AwaitingCloseCheck(origin, remaining) =>
        if ms < remaining then s.(phase := AwaitingCloseCheck(origin, remaining - ms))
        else if s.window.closed then Settle(s, Failed(DialogClosedByUser))
        else s.(phase := AwaitingMessage(origin))
      case _ => s
  }

  /** The session after a sequence of events. */
  function Run(s: Session, events: seq<Event>, providerUrls: map<string, string>, parse: Token.Parser): (t: Session)
    requires ValidProviderUrls(providerUrls)
    requires Inv(s)
    ensures Inv(t)
    ensures t.managed == s.managed && t.supplied == s.supplied && t.productId == s.productId
    decreases |events|
  {
    if events == [] then s else Run(Step(s, events[0], providerUrls, parse), events[1..], providerUrls, parse)
  }

  /** A run of timer ticks of the given lengths, in milliseconds. */
  function Ticks(ms: seq<nat>): (events: seq<Event>)
    ensures |events| == |ms|
    ensures forall i :: 0 <= i < |ms| ==> events[i] == Tick(ms[i])
  {
    seq(|ms|, i requires 0 <= i < |ms| => Tick(ms[i]))
  }

  /** The time the ticks `ms` add up to. */
  function Elapsed(ms: seq<nat>): nat
  {
    if ms == [] then 0 else ms[0] + Elapsed(ms[1..])
  }

  // ---------------------------------------------------------------------
  // Properties of the session

  /** However the events go, the outcome callback is called at most once,
      and it has been called exactly when the session is settled. */
  lemma AtMostOneCallback(productId: string, options: Options, events: seq<Event>,
                          providerUrls: map<string, string>, parse: Token.Parser)
    requires ValidProviderUrls(providerUrls)
    ensures var t := Run(Start(productId, options), events, providerUrls, parse);
            |t.callbacks| <= 1 && (|t.callbacks| == 1 <==> t.phase.Settled?)
  {
  }

  /** Once settled, a session stays settled with the same outcome: no later
      event calls the callback again or closes the window again. */
  lemma {:induction false} SettledIsFinal(s: Session, events: seq<Event>,
                                          providerUrls: map<string, string>, parse: Token.Parser)
    requires ValidProviderUrls(providerUrls)
    requires Inv(s) && s.phase.Settled?
    ensures var t := Run(s, events, providerUrls, parse);
            t.phase == s.phase && t.callbacks == s.callbacks && t.window.closeCalls == s.window.closeCalls
    decreases |events|
  {
    if events != [] {
      SettledIsFinal(Step(s, events[0], providerUrls, parse), events[1..], providerUrls, parse);
    }
  }

  /** A window the caller supplied without asking for it to be managed is
      never closed, resized or moved by the session, whatever happens. */
  lemma UnmanagedWindowUntouched(productId: string, w: Window, events: seq<Event>,
                                 providerUrls: map<string, string>, parse: Token.Parser)
    requires ValidProviderUrls(providerUrls)
    ensures var t := Run(Start(productId, Options(Some(w), false)), events, providerUrls, parse);
            t.window.closeCalls == 0 && t.window.resizeCalls == 0 && t.window.moveCalls == 0
  {
  }

  /** A managed window, the session's own or a supplied one it was asked
      to manage, is closed, once, whenever the session settles. */
  lemma ManagedWindowClosedOnSettle(productId: string, options: Options, events: seq<Event>,
                                    providerUrls: map<string, string>, parse: Token.Parser)
    requires ValidProviderUrls(providerUrls)
    requires options.paymentWindow.None? || options.managePaymentWindow
    ensures var t := Run(Start(productId, options), events, providerUrls, parse);
            t.phase.Settled? ==> t.window.closed && t.window.closeCalls == 1
  {
  }

  /** An error from the adapter's transaction request settles the session
      with that very error, closing the window if it is managed. */
  lemma AdapterErrorPassedThrough(productId: string, options: Options, err: string,
                                  providerUrls: map<string, string>, parse: Token.Parser)
    requires ValidProviderUrls(providerUrls)
    ensures var s := Start(productId, options);
            var t := Step(s, AdapterResult(Failure(err)), providerUrls, parse);
            && t.phase == Settled(Failed(err)) && t.callbacks == [Failed(err)]
            && t.window.closeCalls == (if s.managed then 1 else 0)
  {
  }

  /** A token whose type has no provider URL template settles the session
      with UNEXPECTED_JWT_TYPE, closing the window if it is managed. */
  lemma UnexpectedJwtTypeSettles(productId: string, options: Options, jwt: string,
                                 providerUrls: map<string, string>, parse: Token.Parser)
    requires ValidProviderUrls(providerUrls)
    requires JwtType(jwt, parse).None? || JwtType(jwt, parse).value !in providerUrls
    ensures var s := Start(productId, options);
            var t := Step(s, AdapterResult(Success(jwt)), providerUrls, parse);
            && t.phase == Settled(Failed(UnexpectedJwtType)) && t.callbacks == [Failed(UnexpectedJwtType)]
            && t.window.closeCalls == (if s.managed then 1 else 0)
  {
  }

  /** A token of a known type points the window at the provider's URL with
      the token substituted, registers the listener for the provider's
      origin, and repositions a supplied window the session manages. */
  lemma PaymentStarted(productId: string, options: Options, jwt: string, typ: string,
                       providerUrls: map<string, string>, parse: Token.Parser)
    requires ValidProviderUrls(providerUrls)
    ensures typ in providerUrls && JwtType(jwt, parse) == Some(typ) ==>
            var s := Start(productId, options);
            var t := Step(s, AdapterResult(Success(jwt)), providerUrls, parse);
            && t.phase == AwaitingMessage(Url.UrlOrigin(providerUrls[typ]).value)
            && t.listening && t.callbacks == []
            && t.window.location == Text.ReplaceFirst(providerUrls[typ], JwtPlaceholder, jwt)
            && t.window.closeCalls == 0
            && t.window.resizeCalls == (if options.paymentWindow.Some? && options.managePaymentWindow then 1 else 0)
            && t.window.moveCalls == t.window.resizeCalls
  {
  }

  /** "ok" from the provider's origin settles an awaiting session as paid,
      closing a managed window and leaving its address and size alone. */
  lemma OkSettlesPaid(s: Session, origin: string,
                      providerUrls: map<string, string>, parse: Token.Parser)
    requires ValidProviderUrls(providerUrls)
    requires Inv(s) && s.phase == AwaitingMessage(origin)
    ensures var ok := PayMessage(origin, Some(MessageData(Some("ok"), None)));
            var t := Step(s, Message(ok), providerUrls, parse);
            && t.phase == Settled(Paid) && t.callbacks == [Paid]
            && t.window.location == s.window.location
            && t.window.closeCalls == (if s.managed then 1 else 0)
            && t.window.resizeCalls == s.window.resizeCalls && t.window.moveCalls == s.window.moveCalls
  {
  }

  /** The whole successful purchase: the token is accepted, the provider
      posts "ok" from its origin, and the session settles as paid with the
      window showing the provider's URL; a managed window ends closed and a
      supplied one it manages also resized and moved; a supplied window it
      does not manage is left open. */
  lemma SuccessfulPurchase(productId: string, options: Options, jwt: string, typ: string,
                           providerUrls: map<string, string>, parse: Token.Parser)
    requires ValidProviderUrls(providerUrls)
    ensures typ in providerUrls && JwtType(jwt, parse) == Some(typ) ==>
            var template := providerUrls[typ];
            var ok := PayMessage(Url.UrlOrigin(template).value, Some(MessageData(Some("ok"), None)));
            var s := Start(productId, options);
            var t := Run(s, [AdapterResult(Success(jwt)), Message(ok)], providerUrls, parse);
            && t.phase == Settled(Paid) && t.callbacks == [Paid]
            && t.window.location == Text.ReplaceFirst(template, JwtPlaceholder, jwt)
            && t.window.closeCalls == (if s.managed then 1 else 0)
            && t.window.resizeCalls == (if options.paymentWindow.Some? && options.managePaymentWindow then 1 else 0)
            && t.window.moveCalls == t.window.resizeCalls
  {
    if typ in providerUrls && JwtType(jwt, parse) == Some(typ) {
      var template := providerUrls[typ];
      var ok := PayMessage(Url.UrlOrigin(template).value, Some(MessageData(Some("ok"), None)));
      var s := Start(productId, options);
      var events := [AdapterResult(Success(jwt)), Message(ok)];
      PaymentStarted(productId, options, jwt, typ, providerUrls, parse);
      var s1 := Step(s, events[0], providerUrls, parse);
      OkSettlesPaid(s1, ok.origin, providerUrls, parse);
      assert events[1..] == [Message(ok)];
      assert Run(s, events, providerUrls, parse) == Run(s1, [Message(ok)], providerUrls, parse);
      assert Run(s1, [Message(ok)], providerUrls, parse) == Step(s1, Message(ok), providerUrls, parse);
    }
  }

  /** A provider failure with an error code settles the session with that
      code, closing a managed window. */
  lemma ProviderFailurePassedThrough(s: Session, origin: string, code: string,
                                     providerUrls: map<string, string>, parse: Token.Parser)
    requires ValidProviderUrls(providerUrls)
    requires Inv(s) && s.phase == AwaitingMessage(origin)
    requires code != ""
    ensures var failed := PayMessage(origin, Some(MessageData(Some("failed"), Some(code))));
            var t := Step(s, Message(failed), providerUrls, parse);
            && t.phase == Settled(Failed(code)) && t.callbacks == [Failed(code)]
            && t.window.closeCalls == (if s.managed then 1 else 0)
  {
  }

  /** A message from any origin but the provider's settles an awaiting
      session with UNKNOWN_MESSAGE_ORIGIN, never as paid; more generally,
      only an "ok" from the provider's origin ever settles a session as
      paid. */
  lemma ForeignMessageNeverPays(s: Session, msg: PayMessage,
                                providerUrls: map<string, string>, parse: Token.Parser)
    requires ValidProviderUrls(providerUrls)
    requires Inv(s)
    ensures var t := Step(s, Message(msg), providerUrls, parse);
            match s.phase
            case AwaitingMessage(origin) =>
              (msg.origin != origin ==> t.phase == Settled(Failed(UnknownMessageOrigin))) &&
              (t.phase == Settled(Paid) ==> HasStatus(msg, origin, "ok"))
            case AwaitingCloseCheck(origin, _) =>
              (msg.origin != origin ==> t.phase == Settled(Failed(UnknownMessageOrigin))) &&
              (t.phase == Settled(Paid) ==> HasStatus(msg, origin, "ok"))
            case _ => t == s
  {
  }

  /** Abandonment: after "unloaded" from the provider, the session does not
      settle before the grace delay has passed; once it has, a window that
      is closed settles the session with DIALOG_CLOSED_BY_USER, and one that
      is open (the page merely navigated) leaves it waiting for messages. */
  lemma AbandonmentDetected(s: Session, origin: string, early: nat,
                            providerUrls: map<string, string>, parse: Token.Parser)
    requires ValidProviderUrls(providerUrls)
    requires Inv(s) && s.phase == AwaitingMessage(origin)
    requires early < GraceDelayMs
    ensures var unloaded := Message(PayMessage(origin, Some(MessageData(Some("unloaded"), None))));
            var s1 := Step(s, unloaded, providerUrls, parse);
            && s1.phase == AwaitingCloseCheck(origin, GraceDelayMs) && s1.callbacks == []
            && !Step(s1, Tick(early), providerUrls, parse).phase.Settled?
            && var t := Step(s1, Tick(GraceDelayMs), providerUrls, parse);
            && (s.window.closed ==> t.phase == Settled(Failed(DialogClosedByUser)) && t.callbacks == [Failed(DialogClosedByUser)])
            && (!s.window.closed ==> t.phase == AwaitingMessage(origin) && t.callbacks == [])
  {
  }

  /** While a look at the window is due, ticks that add up to less than the
      time remaining only count it down: the session does not settle, no
      callback is made, and nothing else changes, however the time is
      split into ticks. */
  lemma {:induction false} NoSettlementBeforeDelay(s: Session, origin: string, remaining: nat, ms: seq<nat>,
                                                   providerUrls: map<string, string>, parse: Token.Parser)
    requires ValidProviderUrls(providerUrls)
    requires Inv(s) && s.phase == AwaitingCloseCheck(origin, remaining)
    requires Elapsed(ms) < remaining
    ensures var t := Run(s, Ticks(ms), providerUrls, parse);
            t == s.(phase := AwaitingCloseCheck(origin, remaining - Elapsed(ms))) && t.callbacks == []
    decreases |ms|
  {
    if ms != [] {
      var s1 := Step(s, Tick(ms[0]), providerUrls, parse);
      assert s1 == s.(phase := AwaitingCloseCheck(origin, remaining - ms[0]));
      assert Ticks(ms)[1..] == Ticks(ms[1..]);
      NoSettlementBeforeDelay(s1, origin, remaining - ms[0], ms[1..], providerUrls, parse);
    }
  }

  /** The partner of `NoSettlementBeforeDelay`: the tick with which the
      elapsed time first reaches the time remaining makes the look at the
      window. The session then settles, with DIALOG_CLOSED_BY_USER, exactly
      when the window is closed; otherwise it goes back to awaiting
      messages from the same origin without a callback. */
  lemma {:induction false} CloseCheckAtDelay(s: Session, origin: string, remaining: nat, early: seq<nat>, last: nat,
                                             providerUrls: map<string, string>, parse: Token.Parser)
    requires ValidProviderUrls(providerUrls)
    requires Inv(s) && s.phase == AwaitingCloseCheck(origin, remaining)
    requires Elapsed(early) < remaining <= Elapsed(early) + last
    ensures var t := Run(s, Ticks(early + [last]), providerUrls, parse);
            && (t.phase.Settled? <==> s.window.closed)
            && (s.window.closed ==> t.phase == Settled(Failed(DialogClosedByUser)) && t.callbacks == [Failed(DialogClosedByUser)])
            && (!s.window.closed ==> t.phase == AwaitingMessage(origin) && t.callbacks == [])
    decreases |early|
  {
    if early == [] {
      assert Ticks([] + [last]) == [Tick(last)];
      assert Ticks([] + [last])[1..] == [];
    } else {
      var s1 := Step(s, Tick(early[0]), providerUrls, parse);
      assert s1 == s.(phase := AwaitingCloseCheck(origin, remaining - early[0]));
      assert (early + [last])[1..] == early[1..] + [last];
      assert Ticks(early + [last])[1..] == Ticks(early[1..] + [last]);
      CloseCheckAtDelay(s1, origin, remaining - early[0], early[1..], last, providerUrls, parse);
    }
  }
}

=== FILE: receipts.dfy ===
/** The receipt data verifier: structural and trust checks on a receipt
    (a signed token asserting that a product was bought), in a fixed order
    where the first failing check decides the error. */
module Receipts {
  import opened Wrappers
  import opened Json
  import Token
  import Url
  import Base64

  /** The product being bought. No check consults its identifier: the
      receipt is bound to the application, not to the product. */
  datatype Product = Product(productId: string)

  /** The configuration the verifier reads. `appSelfOrigin` is the origin of
      the installed application (packaged mode), `None` for a web page
      (hosted mode), where `windowOrigin` is the page's own origin. */
  datatype Config = Config(
    appSelfOrigin: Option<string>,
    windowOrigin: string,
    receiptCheckSites: seq<string>,
    fakeProducts: bool)

  /** Why a receipt is invalid. */
  datatype Reason =
    | NotAString
    | Malformed(cause: Token.DecodeError)
    | NotAnObject
    | MissingProductUrl
    | MissingStoredata
    | StoredataNotString
    | BadVerifyUrl
    | VerifySiteNotAllowed
    | ForeignProductUrl

  /** A test receipt refused outside test mode carries its decoded payload
      as diagnostic information. */
  datatype VerifyError =
    | InvalidReceipt(reason: Reason)
    | TestReceiptNotAllowed(info: Json)

  /** The payload fields the checks read, once their presence and types are
      established. */
  datatype Claims = Claims(typ: Option<Json>, productUrl: Json, storedata: string, verify: string)

  const TestReceiptType := "test-receipt"

  predicate IsTestReceipt(c: Claims) {
    c.typ == Some(JString(TestReceiptType))
  }

  /** The claims made of the fields a payload holds (`None` for an absent
      field), or the first that is missing or of the wrong type, in the
      order the checks read them. Presence follows JavaScript's truthiness,
      as in `!x`. */
  function ReadFields(url: Option<Json>, storedata: Option<Json>, verify: Option<Json>, typ: Option<Json>)
    : (r: Result<Claims, Reason>)
    ensures r.Success? <==> && url.Some? && Truthy(url.value)
                            && storedata.Some? && storedata.value.JString? && storedata.value.s != ""
                            && verify.Some? && verify.value.JString? && Url.UrlOrigin(verify.value.s).Some?
    ensures r.Success? ==> r.value == Claims(typ, url.value, storedata.value.s, verify.value.s)
    ensures url.None? || !Truthy(url.value) ==> r == Failure(MissingProductUrl)
  {
    if url.None? || !Truthy(url.value) then Failure(MissingProductUrl)
    else if storedata.None? || !Truthy(storedata.value) then Failure(MissingStoredata)
    else if !storedata.value.JString? then Failure(StoredataNotString)
    else if verify.None? || !verify.value.JString? || Url.UrlOrigin(verify.value.s).None? then Failure(BadVerifyUrl)
    else Success(Claims(typ, url.value, storedata.value.s, verify.value.s))
  }

  /** The claims of a payload: `product.url`, `product.storedata`,
      `verify` and `typ`, read from a JSON object. */
  function ReadClaims(payload: Json): (r: Result<Claims, Reason>)
    ensures !payload.JObject? ==> r == Failure(NotAnObject)
    ensures r.Success? ==>
              && Field(payload, "product").Some?
              && Field(Field(payload, "product").value, "url") == Some(r.value.productUrl)
              && Truthy(r.value.productUrl)
              && Field(Field(payload, "product").value, "storedata") == Some(JString(r.value.storedata))
              && r.value.storedata != ""
              && Field(payload, "verify") == Some(JString(r.value.verify))
              && Url.UrlOrigin(r.value.verify).Some?
              && r.value.typ == Field(payload, "typ")
  {
    if !payload.JObject? then Failure(NotAnObject)
    else
      var product := Field(payload, "product");
      ReadFields(if product.Some? then Field(product.value, "url") else None,
                 if product.Some? then Field(product.value, "storedata") else None,
                 Field(payload, "verify"),
                 Field(payload, "typ"))
  }

  /** The origin of the receipt's verification authority is allowed. */
  predicate VerifySiteAllowed(c: Claims, cfg: Config) {
    var origin := Url.UrlOrigin(c.verify);
    origin.Some? && origin.value in cfg.receiptCheckSites
  }

  /** The receipt was issued for this application: in packaged mode for its
      origin, given either in full or without its "scheme://" prefix; in
      hosted mode for exactly the page's origin. */
  predicate ProductUrlBound(url: Json, cfg: Config) {
    match cfg.appSelfOrigin
    case Some(origin) => url == JString(origin) || url == JString(Url.StripScheme(origin))
    case None => url == JString(cfg.windowOrigin)
  }

  /** The trust rules on well-formed claims: a test receipt is decided by
      test mode alone; a real one needs an allowed verification authority
      and a product URL bound to this application. */
  function CheckTrust(c: Claims, payload: Json, cfg: Config): (r: Result<Claims, VerifyError>)
    ensures r.Success? <==> (if IsTestReceipt(c) then cfg.fakeProducts
                             else VerifySiteAllowed(c, cfg) && ProductUrlBound(c.productUrl, cfg))
    ensures r.Success? ==> r.value == c
    ensures r.Failure? && r.error.TestReceiptNotAllowed? <==> IsTestReceipt(c) && !cfg.fakeProducts
  {
    if IsTestReceipt(c) then
      if cfg.fakeProducts then Success(c) else Failure(TestReceiptNotAllowed(payload))
    else if !VerifySiteAllowed(c, cfg) then Failure(InvalidReceipt(VerifySiteNotAllowed))
    else if !ProductUrlBound(c.productUrl, cfg) then Failure(InvalidReceipt(ForeignProductUrl))
    else Success(c)
  }

  /** `receipts.verifyData`: the claims of an acceptable receipt, or why it
      is not acceptable. */
  function VerifyData(receipt: Json, product: Product, cfg: Config, parse: Token.Parser): (r: Result<Claims, VerifyError>)
    ensures !receipt.JString? ==> r == Failure(InvalidReceipt(NotAString))
    ensures r.Success? ==>
              && receipt.JString?
              && Token.DecodeReceipt(receipt.s, parse).Success?
              && ReadClaims(Token.DecodeReceipt(receipt.s, parse).value) == Success(r.value)
              && (IsTestReceipt(r.value) ==> cfg.fakeProducts)
              && (!IsTestReceipt(r.value) ==> VerifySiteAllowed(r.value, cfg) && ProductUrlBound(r.value.productUrl, cfg))
    ensures receipt.JString? && Token.DecodeReceipt(receipt.s, parse).Failure? ==>
              r == Failure(InvalidReceipt(Malformed(Token.DecodeReceipt(receipt.s, parse).error)))
    ensures receipt.JString? && Token.DecodeReceipt(receipt.s, parse).Success? &&
            ReadClaims(Token.DecodeReceipt(receipt.s, parse).value).Failure? ==>
              r == Failure(InvalidReceipt(ReadClaims(Token.DecodeReceipt(receipt.s, parse).value).error))
    ensures r.Failure? && r.error.TestReceiptNotAllowed? ==>
              && !cfg.fakeProducts
              && receipt.JString? && Token.DecodeReceipt(receipt.s, parse).Success?
              && r.error.info == Token.DecodeReceipt(receipt.s, parse).value
              && ReadClaims(r.error.info).Success? && IsTestReceipt(ReadClaims(r.error.info).value)
  {
    if !receipt.JString? then Failure(InvalidReceipt(NotAString))
    else match Token.DecodeReceipt(receipt.s, parse)
      case Failure(cause) => Failure(InvalidReceipt(Malformed(cause)))
      case Success(payload) =>
        match ReadClaims(payload)
        case Failure(reason) => Failure(InvalidReceipt(reason))
        case Success(c) => CheckTrust(c, payload, cfg)
  }

  // ---------------------------------------------------------------------
  // Payloads as the issuer writes them

  /** The claims are such as an issuer writes: a truthy product URL,
      non-empty store data and an absolute verification URL. */
  predicate WellFormed(c: Claims) {
    Truthy(c.productUrl) && c.storedata != "" && Url.UrlOrigin(c.verify).Some?
  }

  /** The JSON payload carrying `c`; `typ` is written only when present. */
  function ClaimsPayload(c: Claims): Json {
    var product := JObject([("url", c.productUrl), ("storedata", JString(c.storedata))]);
    var rest := [("product", product), ("verify", JString(c.verify))];
    match c.typ
    case Some(t) => JObject([("typ", t)] + rest)
    case None => JObject(rest)
  }

  /** The fields of the payload written for `c`. */
  lemma FieldsOfPayload(c: Claims)
    ensures Field(ClaimsPayload(c), "product") ==
            Some(JObject([("url", c.productUrl), ("storedata", JString(c.storedata))]))
    ensures Field(ClaimsPayload(c), "verify") == Some(JString(c.verify))
    ensures Field(ClaimsPayload(c), "typ") == c.typ
    ensures Field(JObject([("url", c.productUrl), ("storedata", JString(c.storedata))]), "url") == Some(c.productUrl)
    ensures Field(JObject([("url", c.productUrl), ("storedata", JString(c.storedata))]), "storedata") ==
            Some(JString(c.storedata))
  {
    LookupTwo("url", c.productUrl, "storedata", JString(c.storedata));
    var product := JObject([("url", c.productUrl), ("storedata", JString(c.storedata))]);
    match c.typ
    case Some(t) =>
      assert ClaimsPayload(c).members == [("typ", t), ("product", product), ("verify", JString(c.verify))];
      LookupThree("typ", t, "product", product, "verify", JString(c.verify));
    case None =>
      LookupTwo("product", product, "verify", JString(c.verify));
  }

  /** An object whose fields hold the claims `c` yields `c` exactly when
      `c` is well formed. */
  lemma ReadClaimsOfFields(p: Json, product: Json, c: Claims)
    ensures && p.JObject?
            && Field(p, "product") == Some(product) && Field(p, "verify") == Some(JString(c.verify))
            && Field(p, "typ") == c.typ
            && Field(product, "url") == Some(c.productUrl)
            && Field(product, "storedata") == Some(JString(c.storedata))
            ==> (ReadClaims(p) == Success(c) <==> WellFormed(c))
  {
    if p.JObject? && Field(p, "product") == Some(product) {
      assert ReadClaims(p) == ReadFields(Field(product, "url"), Field(product, "storedata"), Field(p, "verify"), Field(p, "typ"));
    }
  }

  /** Reading the claims back from the payload written for them gives them
      back unchanged, exactly when they are well formed. */
  lemma ReadClaimsPayload(c: Claims)
    ensures ReadClaims(ClaimsPayload(c)) == Success(c) <==> WellFormed(c)
  {
    FieldsOfPayload(c);
    ReadClaimsOfFields(ClaimsPayload(c), JObject([("url", c.productUrl), ("storedata", JString(c.storedata))]), c);
  }

  // ---------------------------------------------------------------------
  // Properties of the verifier

  /** A receipt built from the payload written for well-formed claims is
      judged by the trust rules alone, with those very claims. */
  lemma EncodedReceiptJudgedByTrust(header: string, bytes: seq<Base64.byte>, signature: string,
                                    c: Claims, product: Product, cfg: Config, parse: Token.Parser)
    requires header != "" && '.' !in header && '~' !in header
    requires signature != "" && '.' !in signature && '~' !in signature
    requires |bytes| > 0 && parse(bytes) == Some(ClaimsPayload(c))
    requires WellFormed(c)
    ensures VerifyData(JString(Token.EncodeJwt(header, bytes, signature)), product, cfg, parse) ==
            CheckTrust(c, ClaimsPayload(c), cfg)
  {
    var jwt := Token.EncodeJwt(header, bytes, signature);
    Token.EncodedHasNoSeparator(bytes);
    assert '~' !in jwt;
    Token.KeyPrefixSkipped("", jwt, parse);
    Token.DecodeEncodeJwt(header, bytes, signature, parse);
    ReadClaimsPayload(c);
  }

  /** Too many "~"-separated key segments make a receipt invalid. */
  lemma TooManyKeySegmentsRejected(product: Product, cfg: Config, parse: Token.Parser)
    ensures VerifyData(JString("one~too~many"), product, cfg, parse) ==
            Failure(InvalidReceipt(Malformed(Token.TooManyKeySegments)))
  {
    Token.TooManyKeySegmentsExample(parse);
  }

  /** Fewer than three token segments make a receipt invalid. */
  lemma TooFewSegmentsRejected(product: Product, cfg: Config, parse: Token.Parser)
    ensures VerifyData(JString("one.two"), product, cfg, parse) ==
            Failure(InvalidReceipt(Malformed(Token.WrongSegmentCount)))
  {
    Token.TooFewSegmentsExample(parse);
  }

  /** A payload segment that is not base64 makes a receipt invalid. */
  lemma BadBase64Rejected(header: string, payload: string, signature: string, i: nat,
                          product: Product, cfg: Config, parse: Token.Parser)
    requires header != "" && '.' !in header && '~' !in header
    requires signature != "" && '.' !in signature && '~' !in signature
    requires '.' !in payload && '~' !in payload
    requires i < |payload| && !Base64.IsAlphabetChar(payload[i]) && payload[i] != '=' &&
             !Base64.IsWhitespace(payload[i])
    ensures VerifyData(JString(header + "." + payload + "." + signature), product, cfg, parse) ==
            Failure(InvalidReceipt(Malformed(Token.BadBase64)))
  {
    var jwt := header + "." + payload + "." + signature;
    assert '~' !in jwt;
    Token.KeyPrefixSkipped("", jwt, parse);
    Token.ForeignPayloadRejected(header, payload, signature, parse, i);
  }

  /** Payload bytes that are not JSON make a receipt invalid. */
  lemma BadJsonRejected(header: string, bytes: seq<Base64.byte>, signature: string,
                        product: Product, cfg: Config, parse: Token.Parser)
    requires header != "" && '.' !in header && '~' !in header
    requires signature != "" && '.' !in signature && '~' !in signature
    requires |bytes| > 0 && parse(bytes).None?
    ensures VerifyData(JString(Token.EncodeJwt(header, bytes, signature)), product, cfg, parse) ==
            Failure(InvalidReceipt(Malformed(Token.BadJson)))
  {
    var jwt := Token.EncodeJwt(header, bytes, signature);
    Token.EncodedHasNoSeparator(bytes);
    assert '~' !in jwt;
    Token.KeyPrefixSkipped("", jwt, parse);
    Token.DecodeEncodeJwt(header, bytes, signature, parse);
  }

  /** A payload whose product has no URL is invalid for that reason. */
  lemma MissingProductUrlRejected(verify: string)
    ensures ReadClaims(JObject([("product", JObject([("storedata", JString("storedata"))])),
                                ("verify", JString(verify))])) == Failure(MissingProductUrl)
    ensures ReadClaims(JObject([("product", JObject([]))])) == Failure(MissingProductUrl)
  {
    var noUrl := JObject([("storedata", JString("storedata"))]);
    LookupTwo("product", noUrl, "verify", JString(verify));
    assert Lookup(noUrl.members, "url") == None by {
      assert noUrl.members[..0] == [];
    }
    assert Lookup([("product", JObject([]))], "product") == Some(JObject([])) by {
      assert [("product", JObject([]))][..0] == [];
    }
  }

  /** A payload whose product has a URL but no store data is invalid for
      that reason. */
  lemma MissingStoredataRejected(url: Json, verify: string)
    requires Truthy(url)
    ensures ReadClaims(JObject([("product", JObject([("url", url)])), ("verify", JString(verify))])) ==
            Failure(MissingStoredata)
  {
    var onlyUrl := JObject([("url", url)]);
    LookupTwo("product", onlyUrl, "verify", JString(verify));
    assert onlyUrl.members[..0] == [];
    assert Lookup(onlyUrl.members, "url") == Some(url);
    assert Lookup(onlyUrl.members, "storedata") == None;
  }

  /** A payload whose store data is an object is invalid for that reason. */
  lemma NonStringStoredataRejected(url: Json, verify: string)
    requires Truthy(url)
    ensures ReadClaims(JObject([("product", JObject([("url", url), ("storedata", JObject([]))])),
                                ("verify", JString(verify))])) == Failure(StoredataNotString)
  {
    var badData := JObject([("url", url), ("storedata", JObject([]))]);
    LookupTwo("product", badData, "verify", JString(verify));
    LookupTwo("url", url, "storedata", JObject([]));
  }

  /** The receipt decodes and its claims read as `c`. */
  predicate ReadsAs(receipt: string, parse: Token.Parser, c: Claims) {
    var decoded := Token.DecodeReceipt(receipt, parse);
    decoded.Success? && ReadClaims(decoded.value) == Success(c)
  }

  /** A test receipt is accepted exactly in test mode, whatever its product
      URL and verification authority; outside test mode it is refused as a
      test receipt, with its payload attached. */
  lemma TestReceiptGate(receipt: string, c: Claims, product: Product, cfg: Config, parse: Token.Parser)
    ensures ReadsAs(receipt, parse, c) && IsTestReceipt(c) ==>
              && (VerifyData(JString(receipt), product, cfg, parse).Success? <==> cfg.fakeProducts)
              && (!cfg.fakeProducts ==>
                    VerifyData(JString(receipt), product, cfg, parse) ==
                    Failure(TestReceiptNotAllowed(Token.DecodeReceipt(receipt, parse).value)))
  {
  }

  /** A real receipt naming a verification authority outside the allowed
      sites is invalid, whatever its product URL. */
  lemma VerifySiteGate(receipt: string, c: Claims, product: Product, cfg: Config, parse: Token.Parser)
    ensures ReadsAs(receipt, parse, c) && !IsTestReceipt(c) && !VerifySiteAllowed(c, cfg) ==>
              VerifyData(JString(receipt), product, cfg, parse) == Failure(InvalidReceipt(VerifySiteNotAllowed))
  {
  }

  /** The allow-list compares origins: a verification URL
      `scheme://host` followed by a path is allowed exactly when
      `scheme://host` is an allowed site. */
  lemma VerifySiteOfUrl(c: Claims, cfg: Config, scheme: string, host: string, path: string)
    requires |scheme| > 0 && ':' !in scheme
    requires Url.IsHost(host)
    requires |path| == 0 || Url.IsHostEnd(path[0])
    requires c.verify == scheme + Url.SchemeSeparator + host + path
    ensures VerifySiteAllowed(c, cfg) <==> scheme + Url.SchemeSeparator + host in cfg.receiptCheckSites
  {
    Url.OriginOfUrl(scheme, host, path);
  }

  /** Packaged mode: a real receipt from an allowed authority is accepted
      exactly when its product URL is the application's origin, in full or
      without its scheme; otherwise its product URL is foreign. */
  lemma PackagedBinding(receipt: string, c: Claims, product: Product, cfg: Config, parse: Token.Parser)
    ensures ReadsAs(receipt, parse, c) && !IsTestReceipt(c) && VerifySiteAllowed(c, cfg) && cfg.appSelfOrigin.Some? ==>
              var origin := cfg.appSelfOrigin.value;
              var r := VerifyData(JString(receipt), product, cfg, parse);
              && (r.Success? <==> c.productUrl == JString(origin) || c.productUrl == JString(Url.StripScheme(origin)))
              && (r.Failure? ==> r == Failure(InvalidReceipt(ForeignProductUrl)))
  {
  }

  /** Hosted mode: a real receipt from an allowed authority is accepted
      exactly when its product URL is the page's own origin; otherwise its
      product URL is foreign. */
  lemma HostedBinding(receipt: string, c: Claims, product: Product, cfg: Config, parse: Token.Parser)
    ensures ReadsAs(receipt, parse, c) && !IsTestReceipt(c) && VerifySiteAllowed(c, cfg) && cfg.appSelfOrigin.None? ==>
              var r := VerifyData(JString(receipt), product, cfg, parse);
              && (r.Success? <==> c.productUrl == JString(cfg.windowOrigin))
              && (r.Failure? ==> r == Failure(InvalidReceipt(ForeignProductUrl)))
  {
  }

  /** An "app://" origin accepts its bare form, as the marketplace writes
      product URLs for packaged applications. */
  lemma BareAppOriginExample(cfg: Config)
    ensures cfg.appSelfOrigin == Some("app://the-origin") ==> ProductUrlBound(JString("the-origin"), cfg)
  {
    assert "app://the-origin" == "app" + Url.SchemeSeparator + "the-origin";
    Url.StripSchemeOf("app", "the-origin");
  }

  /** An "app://" origin accepts itself in full, and a foreign name is
      refused. */
  lemma PrefixedAppOriginExample(cfg: Config)
    ensures cfg.appSelfOrigin == Some("app://the-app") ==> ProductUrlBound(JString("app://the-app"), cfg)
    ensures cfg.appSelfOrigin == Some("app://the-app") ==> !ProductUrlBound(JString("wrong-app"), cfg)
  {
    assert "app://the-app" == "app" + Url.SchemeSeparator + "the-app";
    Url.StripSchemeOf("app", "the-app");
  }

  /** "http://" and "https://" origins accept themselves. */
  lemma HostedAppOriginExample(cfg: Config)
    ensures cfg.appSelfOrigin == Some("http://hosted-app") ==> ProductUrlBound(JString("http://hosted-app"), cfg)
    ensures cfg.appSelfOrigin == Some("https://hosted-app") ==> ProductUrlBound(JString("https://hosted-app"), cfg)
  {
  }

  /** The hosted-mode example: for a page at "http://some-site.com", a
      receipt for that origin from the allowed authority is accepted, and
      one for any other URL, such as "http://wrong-site.com", is not. */
  lemma HostedExample(header: string, bytes: seq<Base64.byte>, signature: string, url: string,
                      verify: string, site: string, product: Product, parse: Token.Parser)
    requires header != "" && '.' !in header && '~' !in header
    requires signature != "" && '.' !in signature && '~' !in signature
    requires |bytes| > 0
    requires Url.UrlOrigin(verify) == Some(site)
    requires parse(bytes) == Some(ClaimsPayload(Claims(None, JString(url), "x", verify)))
    requires url != ""
    ensures var cfg := Config(None, "http://some-site.com", [site], false);
            VerifyData(JString(Token.EncodeJwt(header, bytes, signature)), product, cfg, parse).Success? <==>
            url == "http://some-site.com"
  {
    var c := Claims(None, JString(url), "x", verify);
    var cfg := Config(None, "http://some-site.com", [site], false);
    EncodedReceiptJudgedByTrust(header, bytes, signature, c, product, cfg, parse);
  }
}

=== FILE: text.dfy ===
/** String operations the receipt and payment code relies on, with the
    semantics of JavaScript's `indexOf`, `split` and `replace` for a plain
    (non-regular-expression) pattern. */
module Text {
  import opened Wrappers

  /** `pat` occurs in `s` starting at index `i`. */
  predicate OccursAt(s: string, pat: string, i: nat) {
    i + |pat| <= |s| && s[i..i + |pat|] == pat
  }

  /** First occurrence of `pat` in `s` at or after `from`. */
  function FindFrom(s: string, pat: string, from: nat): (r: Option<nat>)
    ensures r.Some? ==> from <= r.value && OccursAt(s, pat, r.value)
    ensures r.Some? ==> forall j :: from <= j < r.value ==> !OccursAt(s, pat, j)
    ensures r.None? ==> forall j :: from <= j ==> !OccursAt(s, pat, j)
    decreases |s| - from
  {
    if from + |pat| > |s| then None
    else if s[from..from + |pat|] == pat then Some(from)
    else FindFrom(s, pat, from + 1)
  }

  /** First occurrence of `pat` in `s` (JavaScript's `s.indexOf(pat)`,
      with `None` for -1). */
  function Find(s: string, pat: string): (r: Option<nat>)
    ensures r.Some? ==> OccursAt(s, pat, r.value)
    ensures r.Some? ==> forall j :: 0 <= j < r.value ==> !OccursAt(s, pat, j)
    ensures r.None? ==> forall j :: !OccursAt(s, pat, j)
  {
    FindFrom(s, pat, 0)
  }

  /** A first occurrence is unique: whoever shows an occurrence at `i` with
      none before it has found what `Find` returns. */
  lemma FindIsFirst(s: string, pat: string, i: nat)
    requires OccursAt(s, pat, i)
    requires forall j :: 0 <= j < i ==> !OccursAt(s, pat, j)
    ensures Find(s, pat) == Some(i)
  {
  }

  /** A pattern glued after a prefix that does not contain its first
      character is first found right after that prefix. */
  lemma FindAfterPrefix(prefix: string, pat: string, rest: string)
    requires |pat| > 0 && pat[0] !in prefix
    ensures Find(prefix + pat + rest, pat) == Some(|prefix|)
  {
    var s := prefix + pat + rest;
    assert OccursAt(s, pat, |prefix|) by {
      assert s[|prefix|..|prefix| + |pat|] == pat;
    }
    forall j | 0 <= j < |prefix|
      ensures !OccursAt(s, pat, j)
    {
      assert s[j] == prefix[j];
      assert j + |pat| <= |s| ==> s[j..j + |pat|][0] == s[j];
    }
    FindIsFirst(s, pat, |prefix|);
  }

  /** The first occurrence of `pat` is still the first one in any prefix
      long enough to contain it. */
  lemma FindInPrefix(s: string, pat: string, n: nat)
    requires Find(s, pat).Some? && Find(s, pat).value + |pat| <= n <= |s|
    ensures Find(s[..n], pat) == Find(s, pat)
  {
    var i := Find(s, pat).value;
    var p := s[..n];
    assert p[i..i + |pat|] == s[i..i + |pat|];
    forall j | 0 <= j < i
      ensures !OccursAt(p, pat, j)
    {
      assert !OccursAt(s, pat, j);
      assert j + |pat| <= |p| ==> p[j..j + |pat|] == s[j..j + |pat|];
    }
    FindIsFirst(p, pat, i);
  }

  /** Index of the first `c` in `s`. */
  function FirstIndex(s: string, c: char): (i: nat)
    requires c in s
    ensures i < |s| && s[i] == c && c !in s[..i]
  {
    if s[0] == c then 0
    else
      var k := FirstIndex(s[1..], c);
      assert s[..k + 1] == [s[0]] + s[1..][..k];
      k + 1
  }

  /** The parts glued back together with `sep` between consecutive parts. */
  function Join(parts: seq<string>, sep: char): string
    requires |parts| >= 1
  {
    if |parts| == 1 then parts[0] else parts[0] + [sep] + Join(parts[1..], sep)
  }

  lemma JoinTwo(a: string, b: string, sep: char)
    ensures Join([a, b], sep) == a + [sep] + b
  {
    assert [a, b][1..] == [b];
  }

  lemma JoinThree(a: string, b: string, c: string, sep: char)
    ensures Join([a, b, c], sep) == a + [sep] + b + [sep] + c
  {
    assert [a, b, c][1..] == [b, c];
    JoinTwo(b, c, sep);
  }

  /** JavaScript's `s.split(sep)` for a one-character separator: the
      maximal runs of `s` between separators, empty runs included. */
  function Split(s: string, sep: char): (parts: seq<string>)
    ensures |parts| >= 1
    ensures forall i :: 0 <= i < |parts| ==> sep !in parts[i]
    ensures Join(parts, sep) == s
    decreases |s|
  {
    if sep !in s then [s]
    else
      var i := FirstIndex(s, sep);
      var rest := Split(s[i + 1..], sep);
      var parts := [s[..i]] + rest;
      assert parts[1..] == rest;
      assert s == s[..i] + [sep] + s[i + 1..];
      parts
  }

  /** The first separator of `head + [sep] + tail` is the one right after
      a separator-free `head`. */
  lemma FirstIndexAfterHead(head: string, sep: char, tail: string)
    requires sep !in head
    ensures FirstIndex(head + [sep] + tail, sep) == |head|
  {
    var s := head + [sep] + tail;
    var i := FirstIndex(s, sep);
    assert forall k :: 0 <= k < |head| ==> s[k] == head[k];
    assert forall k :: 0 <= k < i ==> s[k] != sep by {
      assert forall k :: 0 <= k < i ==> s[..i][k] == s[k];
    }
    assert s[|head|] == sep;
  }

  /** Splitting undoes joining: parts that do not contain the separator
      come back unchanged, in number and in content. */
  lemma {:induction false} SplitJoin(parts: seq<string>, sep: char)
    requires |parts| >= 1
    requires forall i :: 0 <= i < |parts| ==> sep !in parts[i]
    ensures Split(Join(parts, sep), sep) == parts
    decreases |parts|
  {
    if |parts| > 1 {
      var tail := Join(parts[1..], sep);
      var s := parts[0] + [sep] + tail;
      assert Join(parts, sep) == s;
      assert s[|parts[0]|] == sep;
      FirstIndexAfterHead(parts[0], sep, tail);
      assert s[..|parts[0]|] == parts[0];
      assert s[|parts[0]| + 1..] == tail;
      SplitJoin(parts[1..], sep);
      assert Split(s, sep) == [parts[0]] + Split(tail, sep);
      assert [parts[0]] + parts[1..] == parts;
    }
  }

  /** JavaScript's `s.replace(pat, rep)` with a string pattern: only the
      first occurrence is replaced, and `s` is returned unchanged when
      `pat` does not occur. */
  function ReplaceFirst(s: string, pat: string, rep: string): (r: string)
    ensures (forall j: nat :: !OccursAt(s, pat, j)) ==> r == s
    ensures forall i: nat :: OccursAt(s, pat, i) && (forall j :: 0 <= j < i ==> !OccursAt(s, pat, j)) ==>
      r == s[..i] + rep + s[i + |pat|..]
  {
    match Find(s, pat)
    case None => s
    case Some(i) =>
      assert forall k: nat :: OccursAt(s, pat, k) && (forall j :: 0 <= j < k ==> !OccursAt(s, pat, j)) ==> k == i by {
        forall k: nat | OccursAt(s, pat, k) && (forall j :: 0 <= j < k ==> !OccursAt(s, pat, j))
          ensures k == i
        {
          assert !(0 <= i < k);
        }
      }
      s[..i] + rep + s[i + |pat|..]
  }
}

=== FILE: token.dfy ===
/** Signed tokens of three segments separated by ".", the shape of the
    compact serialization of section 7.1 of RFC 7515. The model decodes the
    middle segment as base64 text in the standard alphabet (not the
    URL-safe one), the way the tests encode it, and reads a JSON payload
    from the bytes. The signature is not checked here: that is the job of
    the remote verification authority. A receipt may carry one
    "~"-separated key prefix in front of the token. */
module Token {
  import opened Wrappers
  import opened Json
  import Base64
  import Text

  /** The JSON parser (`JSON.parse` over the decoded bytes), supplied by the
      host: `None` for bytes that are not JSON text. */
  type Parser = seq<Base64.byte> -> Option<Json>

  datatype DecodeError =
    | TooManyKeySegments
    | WrongSegmentCount
    | EmptySegment
    | BadBase64
    | BadJson

  /** The token built from a header, a payload and a signature. */
  function EncodeJwt(header: string, payload: seq<Base64.byte>, signature: string): string {
    header + "." + Base64.Encode(payload) + "." + signature
  }

  /** The JSON payload of a token, or the first structural defect found:
      not exactly three segments, an empty segment, a payload segment that
      is not base64, or payload bytes that are not JSON. */
  function DecodeJwt(jwt: string, parse: Parser): (r: Result<Json, DecodeError>)
    ensures |Text.Split(jwt, '.')| != 3 ==> r == Failure(WrongSegmentCount)
    ensures |Text.Split(jwt, '.')| == 3 ==> (r == Failure(EmptySegment) <==> "" in Text.Split(jwt, '.'))
    ensures r.Success? ==> |Text.Split(jwt, '.')| == 3 && "" !in Text.Split(jwt, '.')
    ensures r.Success? ==>
              var payload := Text.Split(jwt, '.')[1];
              Base64.Decode(payload).Some? && parse(Base64.Decode(payload).value) == Some(r.value)
  {
    var parts := Text.Split(jwt, '.');
    if |parts| != 3 then Failure(WrongSegmentCount)
    else if "" in parts then Failure(EmptySegment)
    else match Base64.Decode(parts[1])
      case None => Failure(BadBase64)
      case Some(bytes) =>
        match parse(bytes)
        case None => Failure(BadJson)
        case Some(payload) => Success(payload)
  }

  /** The JSON payload of a receipt: its token is the whole receipt, or
      what follows the single "~" of a key-prefixed receipt. */
  function DecodeReceipt(receipt: string, parse: Parser): (r: Result<Json, DecodeError>)
    ensures |Text.Split(receipt, '~')| > 2 ==> r == Failure(TooManyKeySegments)
  {
    var keyed := Text.Split(receipt, '~');
    if |keyed| > 2 then Failure(TooManyKeySegments)
    else DecodeJwt(keyed[|keyed| - 1], parse)
  }

  /** Base64 text never contains either separator, "." or "~". */
  lemma EncodedHasNoSeparator(payload: seq<Base64.byte>)
    ensures '.' !in Base64.Encode(payload)
    ensures '~' !in Base64.Encode(payload)
  {
  }

  /** Decoding undoes encoding: the token built from a non-empty payload
      yields what the parser makes of exactly those payload bytes. */
  lemma DecodeEncodeJwt(header: string, payload: seq<Base64.byte>, signature: string, parse: Parser)
    requires header != "" && '.' !in header
    requires signature != "" && '.' !in signature
    requires |payload| > 0
    ensures DecodeJwt(EncodeJwt(header, payload, signature), parse) ==
            (if parse(payload).Some? then Success(parse(payload).value) else Failure(BadJson))
  {
    var e := Base64.Encode(payload);
    EncodedHasNoSeparator(payload);
    Text.JoinThree(header, e, signature, '.');
    Text.SplitJoin([header, e, signature], '.');
    Base64.DecodeEncode(payload);
  }

  /** A payload segment holding a character foreign to base64 makes the
      token undecodable, whatever its other segments are. */
  lemma ForeignPayloadRejected(header: string, payload: string, signature: string, parse: Parser, i: nat)
    requires header != "" && '.' !in header
    requires signature != "" && '.' !in signature
    requires '.' !in payload
    requires i < |payload| && !Base64.IsAlphabetChar(payload[i]) && payload[i] != '=' && !Base64.IsWhitespace(payload[i])
    ensures DecodeJwt(header + "." + payload + "." + signature, parse) == Failure(BadBase64)
  {
    Text.JoinThree(header, payload, signature, '.');
    Text.SplitJoin([header, payload, signature], '.');
    assert Base64.Decode(payload).None?;
  }

  /** A key prefix in front of "~" is skipped, and a receipt without "~" is
      decoded as a plain token. */
  lemma KeyPrefixSkipped(key: string, jwt: string, parse: Parser)
    requires '~' !in key && '~' !in jwt
    ensures DecodeReceipt(key + "~" + jwt, parse) == DecodeJwt(jwt, parse)
    ensures DecodeReceipt(jwt, parse) == DecodeJwt(jwt, parse)
  {
    Text.JoinTwo(key, jwt, '~');
    Text.SplitJoin([key, jwt], '~');
    assert jwt == Text.Join([jwt], '~');
    Text.SplitJoin([jwt], '~');
  }

  /** Three "~"-separated segments are one key segment too many. */
  lemma TooManyKeySegmentsExample(parse: Parser)
    ensures DecodeReceipt("one~too~many", parse) == Failure(TooManyKeySegments)
  {
    Text.JoinThree("one", "too", "many", '~');
    Text.SplitJoin(["one", "too", "many"], '~');
  }

  /** Two "."-separated segments are one segment short of a token. */
  lemma TooFewSegmentsExample(parse: Parser)
    ensures DecodeReceipt("one.two", parse) == Failure(WrongSegmentCount)
  {
    assert "one.two" == Text.Join(["one.two"], '~');
    Text.SplitJoin(["one.two"], '~');
    assert Text.Split("one.two", '~') == ["one.two"];
    Text.JoinTwo("one", "two", '.');
    Text.SplitJoin(["one", "two"], '.');
    assert |Text.Split("one.two", '.')| == 2;
  }
}

=== FILE: url.dfy ===
/** The origin of an absolute URL (`scheme://host[:port]`), as the payment
    code compares it against allow-lists and message senders. */
module Url {
  import opened Wrappers
  import Text

  const SchemeSeparator := "://"

  /** Characters that end the host-and-port part of a URL. */
  predicate IsHostEnd(c: char) {
    c == '/' || c == '?' || c == '#'
  }

  /** A non-empty host-and-port part: no path, query or fragment in it. */
  predicate IsHost(h: string) {
    |h| > 0 && forall k :: 0 <= k < |h| ==> !IsHostEnd(h[k])
  }

  /** Length of the host-and-port part at the start of `rest`. */
  function HostLength(rest: string): (n: nat)
    ensures n <= |rest|
    ensures forall k :: 0 <= k < n ==> !IsHostEnd(rest[k])
    ensures n < |rest| ==> IsHostEnd(rest[n])
  {
    if |rest| == 0 || IsHostEnd(rest[0]) then 0 else 1 + HostLength(rest[1..])
  }

  /** The origin of `url`: everything up to the end of its host, provided
      `url` has a non-empty scheme before the first "://" and a non-empty
      host after it; `None` otherwise. */
  function UrlOrigin(url: string): (o: Option<string>)
    ensures o.Some? ==> |o.value| <= |url| && url[..|o.value|] == o.value
    ensures o.Some? ==> Text.Find(url, SchemeSeparator).Some?
  {
    match Text.Find(url, SchemeSeparator)
    case None => None
    case Some(i) =>
      if i == 0 then None
      else
        var h := HostLength(url[i + 3..]);
        if h == 0 then None
        else Some(url[..i + 3 + h])
  }

  /** An origin with its "scheme://" prefix removed; an origin without a
      scheme is returned as it is. */
  function StripScheme(origin: string): (r: string)
    ensures |r| <= |origin|
    ensures r == origin[|origin| - |r|..]
  {
    match Text.Find(origin, SchemeSeparator)
    case None => origin
    case Some(i) => origin[i + 3..]
  }

  /** A URL assembled from a colon-free scheme, a host and a path (or query,
      or nothing) has exactly `scheme://host` as its origin. */
  lemma OriginOfUrl(scheme: string, host: string, path: string)
    requires |scheme| > 0 && ':' !in scheme
    requires IsHost(host)
    requires |path| == 0 || IsHostEnd(path[0])
    ensures UrlOrigin(scheme + SchemeSeparator + host + path) == Some(scheme + SchemeSeparator + host)
  {
    var url := scheme + SchemeSeparator + host + path;
    assert url == scheme + SchemeSeparator + (host + path);
    Text.FindAfterPrefix(scheme, SchemeSeparator, host + path);
    var rest := url[|scheme| + 3..];
    assert rest == host + path;
    var h := HostLength(rest);
    assert forall k :: 0 <= k < |host| ==> rest[k] == host[k];
    assert |host| < |rest| ==> rest[|host|] == path[0];
    assert h == |host|;
    assert url[..|scheme| + 3 + h] == scheme + SchemeSeparator + host;
  }

  /** Stripping the scheme of `scheme://rest` leaves `rest`. */
  lemma StripSchemeOf(scheme: string, rest: string)
    requires ':' !in scheme
    ensures StripScheme(scheme + SchemeSeparator + rest) == rest
  {
    Text.FindAfterPrefix(scheme, SchemeSeparator, rest);
    assert (scheme + SchemeSeparator + rest)[|scheme| + 3..] == rest;
  }

  /** An origin is its own origin. */
  lemma {:induction false} OriginIsIdempotent(url: string)
    requires UrlOrigin(url).Some?
    ensures UrlOrigin(UrlOrigin(url).value) == UrlOrigin(url)
  {
    var i := Text.Find(url, SchemeSeparator).value;
    var h := HostLength(url[i + 3..]);
    var o := url[..i + 3 + h];
    Text.FindInPrefix(url, SchemeSeparator, i + 3 + h);
    var rest := o[i + 3..];
    assert rest == url[i + 3..][..h];
    HostLengthOfHost(rest);
    assert UrlOrigin(url) == Some(o);
    assert o[..i + 3 + h] == o;
  }

  /** A string with no host-ending character is all host. */
  lemma {:induction false} HostLengthOfHost(h: string)
    requires forall k :: 0 <= k < |h| ==> !IsHostEnd(h[k])
    ensures HostLength(h) == |h|
  {
    if |h| > 0 {
      HostLengthOfHost(h[1..]);
    }
  }
}

=== FILE: wrappers.dfy ===
/** Optional values and success-or-error results. */
module Wrappers {

  /** A value that may be absent (JavaScript's `null`/`undefined`). */
  datatype Option<+T> = None | Some(value: T)

  /** Either a computed value or the error that stopped the computation. */
  datatype Result<+T, +E> = Success(value: T) | Failure(error: E)
}
